=== FILE: README.md ===
# Agents-Flex chain core, modelled in Dafny

This project models the core of Agents-Flex, a Java framework for building LLM
applications.

- **Chain.** A `Chain` is a runnable workflow of agent nodes. It has a
  key/value memory and a status machine (`READY`, `START`, `PAUSE_FOR_INPUT`,
  `PAUSE_FOR_WAKE_UP`, `ERROR`, `FINISHED_NORMAL`, `FINISHED_ABNORMAL`). It keeps
  a registry of event listeners keyed by event class, plus lists of input
  listeners and output listeners.
- **Nesting.** A chain may be nested in another chain as a node.
  - Events, outputs and stops cascade from a chain up through its parents.
  - `getGlobal` looks a key up along the same path.
- **Running.** `execute`, `executeForResult` and `resume` run an abstract hook
  inside `runInLifeCycle`. That method:
  - fires start and finish events around the hook;
  - turns a thrown failure into `ERROR` then `FINISHED_ABNORMAL`;
  - asks the input listeners for any parameters the run left waiting;
  - normalises the transient statuses.
- **Vendor code.** Beside the chain, the project models three small pieces:
  - the Spark and OpenAI decoders of a streamed message's finish status;
  - the key rules of the OpenAI chat request payload;
  - the Milvus filter-expression adaptor's `EQ`, `BETWEEN` and `IN` cases.

The model is pure. The chains live in an arena (`World`), and a chain is
referred to by its index there. Acyclic parent links are an invariant (`Valid`),
and this is what makes every upward cascade terminate.

Each operation returns the new world together with the ordered list of
*signals* it raised. The signals are events, input requests and outputs.
`EventBus.Expand` turns a signal list into the listener callbacks
(`Delivery` records) that the Java code makes, in the same order. Listener
callbacks themselves are opaque.

The hook (`executeInternal` / `resumeInternal`) is a parameter of type
`Hook`. It is the sequence of calls it makes on its own chain (wait for input,
stop, output, store, set status), followed by either a return or a thrown
failure.

The files follow the program's structure:

| file | contents |
|---|---|
| `chain_arena.dfy` | data model, arena, ancestor path |
| `event_bus.dfy` | listener registry and cascades |
| `chain_memory.dfy` | `get` and `getGlobal` |
| `chain_tree.dfy` | `addNode` |
| `lifecycle.dfy` | status, wait, stop, `runInLifeCycle` |
| `execution.dfy` | `execute`, `executeForResult`, `resume` |
| `llm_status.dfy` | the vendor status decoders |
| `openai_payload.dfy` | the OpenAI request keys |
| `milvus_expression.dfy` | the Milvus expression adaptor |

The model keeps these behaviours of the code:

- **The thrown failure's text is never kept.** The catch block of
  `runInLifeCycle` sets `ERROR` and announces the failure, but it never writes
  `message`. After a failed run, `executeForResult` therefore throws with the
  message of the last stop call, or with the message from before the run
  (`Execution.ForResultFailureKeepsMessage`).
- **A paused chain can have an empty wait set.** `waitInput` with no
  parameters pauses the chain while the wait set stays empty
  (`Lifecycle.WaitForNothingPauses`). The reverse also happens: stopping a
  paused chain finishes it with a non-empty wait set. So "the wait set is
  non-empty exactly when the chain is paused for input" is not an invariant of
  the code.
- **`addNode` overwrites the parent.** Adding a nested chain sets its parent
  even when it already had one.
- **A resumed chain may wait again.** After an accepted `resume`, the chain
  waits for exactly what the resume hook asked for, so the wait set need not
  be empty (`Execution.ResumeRun`).
- **A hook can prevent `FINISHED_NORMAL`.** A hook that returns normally but
  called `stopError`, `waitInput` or `setStatus` keeps any status it set other
  than `START` or `ERROR`, because normalisation only rewrites those two.

## Model

| member | source | states |
|---|---|---|
| ChainArena.UpPathFollowsParents | agents-flex-core/src/main/java/com/agentsflex/chain/Chain.java:213-215 | the path every upward cascade takes steps from each chain to its parent and ends at a chain with no parent |
| ChainArena.UpPathDistinct | agents-flex-core/src/main/java/com/agentsflex/chain/Chain.java:213-215 | with acyclic parent links no chain appears twice on an upward path, so a cascade visits each ancestor once |
| ChainArena.ValidSameParents | agents-flex-core/src/main/java/com/agentsflex/chain/Chain.java:40 | operations that do not touch parent links keep the arena acyclic and every chain's distance to its root |
| EventBus.Register | agents-flex-core/src/main/java/com/agentsflex/chain/Chain.java:71-79 | registering appends the listener to the list of its event class (the base event class when none is given), creating the list if absent, and leaves the other classes' lists alone |
| EventBus.RemoveEverywhere | agents-flex-core/src/main/java/com/agentsflex/chain/Chain.java:82-86 | removing a listener deletes every occurrence of it from every class's list, keeps every other listener with its multiplicity, and keeps the set of classes |
| EventBus.RemoveUnder | agents-flex-core/src/main/java/com/agentsflex/chain/Chain.java:88-93 | removing a listener under one class deletes it from that class's list only; a missing or empty list is left as it is |
| EventBus.RemoveUndoesRegister | agents-flex-core/src/main/java/com/agentsflex/chain/Chain.java:71-86 | registering a listener and then removing it everywhere gives the same lists as removing it from the original registry |
| EventBus.ReceiversMatch | agents-flex-core/src/main/java/com/agentsflex/chain/Chain.java:206-212 | a listener is called for an event exactly when it is registered under a class the event is an instance of (its own kind or the base class) |
| EventBus.LocalEvent | agents-flex-core/src/main/java/com/agentsflex/chain/Chain.java:206-212 | one chain makes, for an event, one call per entry of the lists registered under a matching class, in list order (a listener registered twice is called twice), each with that event and that chain |
| EventBus.LocalInput | agents-flex-core/src/main/java/com/agentsflex/chain/Chain.java:325-329 | notifyInput makes one call per entry of the chain's input-listener list, in list order, each with the chain and the pending parameters |
| EventBus.LocalOutput | agents-flex-core/src/main/java/com/agentsflex/chain/Chain.java:331-335 | notifyOutput makes one call per entry of the chain's output-listener list, in list order, each with the chain, the agent and the response |
| EventBus.Notify | agents-flex-core/src/main/java/com/agentsflex/chain/Chain.java:205-216 | notifyEvent causes only deliveries of that very event; which listeners at which chains receive it, and in what order, is stated by the three lemmas below |
| EventBus.OutputCascade | agents-flex-core/src/main/java/com/agentsflex/chain/Chain.java:353-358 | output causes only output deliveries of that agent and response; which listeners receive them, and in what order, is stated by the two output lemmas below |
| EventBus.NotifyAlongPath | agents-flex-core/src/main/java/com/agentsflex/chain/Chain.java:205-216 | notifyEvent is the local notification of each chain on the upward path, in path order, the chain itself first |
| EventBus.NotifyReachesEachAncestorOnce | agents-flex-core/src/main/java/com/agentsflex/chain/Chain.java:205-216 | the callbacks an event causes at a chain are that chain's local notification if it is the origin or an ancestor, and none otherwise |
| EventBus.NotifyDelivers | agents-flex-core/src/main/java/com/agentsflex/chain/Chain.java:205-216 | a listener receives an event at a chain exactly when that chain is on the origin's upward path and the listener is registered there under a matching class |
| EventBus.OutputAlongPath | agents-flex-core/src/main/java/com/agentsflex/chain/Chain.java:353-358 | output notifies the output listeners of each chain on the upward path, in path order |
| EventBus.OutputReachesEachAncestorOnce | agents-flex-core/src/main/java/com/agentsflex/chain/Chain.java:353-358 | an output reaches the output listeners of the origin and of each ancestor exactly once, and of no other chain |
| EventBus.Expand | agents-flex-core/src/main/java/com/agentsflex/chain/Chain.java:205-216 | the callbacks of a signal list are every callback of each of its signals, and nothing that none of them causes |
| EventBus.ExpandConcat | agents-flex-core/src/main/java/com/agentsflex/chain/Chain.java:205-216 | the callbacks of two signal runs in sequence are the callbacks of the first followed by those of the second |
| EventBus.NotifySameWiring | agents-flex-core/src/main/java/com/agentsflex/chain/Chain.java:205-216 | status, memory and message changes do not change who receives an event |
| ChainMemory.PutAll | agents-flex-core/src/main/java/com/agentsflex/chain/Chain.java:290-292 | merging variables into memory makes every given key read its new value and leaves every other key's value as it was |
| ChainMemory.ChainGet | agents-flex-core/src/main/java/com/agentsflex/chain/Chain.java:218-220 | get reads the chain's own memory only: a held key gives its value, any other key null |
| ChainMemory.GetGlobal | agents-flex-core/src/main/java/com/agentsflex/chain/Chain.java:222-232 | a value in the chain's own memory wins; any non-null result is the value some chain on the upward path holds for the key |
| ChainMemory.GetGlobalIsNearest | agents-flex-core/src/main/java/com/agentsflex/chain/Chain.java:222-232 | getGlobal returns the value held by the nearest chain on the upward path with a non-null value for the key |
| ChainMemory.GetGlobalAbsent | agents-flex-core/src/main/java/com/agentsflex/chain/Chain.java:222-232 | getGlobal gives null exactly when no chain on the upward path holds a non-null value for the key |
| ChainTree.Attach | agents-flex-core/src/main/java/com/agentsflex/chain/Chain.java:135-147 | addNode as written: the node is appended; a listening node is registered for every event; a nested chain gets this chain as parent, whatever chain that is; nothing else changes |
| ChainTree.CyclicAttachBreaksValid | agents-flex-core/src/main/java/com/agentsflex/chain/Chain.java:139-141 | attaching a chain under itself or under one of its descendants leaves that chain with no route to a root: `notifyEvent`, the stops and `output` from it recurse without end, and `getGlobal` does whenever no chain on the cycle holds a non-null value for the key |
| ChainTree.AddNode | agents-flex-core/src/main/java/com/agentsflex/chain/Chain.java:135-147 | for a nested chain that is not this chain or one of its ancestors: the node is appended; a listening node is registered for every event; a nested chain gets this chain as parent; nothing else changes and the arena stays acyclic |
| ChainTree.ReparentKeepsValid | agents-flex-core/src/main/java/com/agentsflex/chain/Chain.java:139-141 | giving a chain a new parent that is not itself or below it keeps every chain rooted |
| ChainTree.AddNodeLinksChild | agents-flex-core/src/main/java/com/agentsflex/chain/Chain.java:139-141 | after nesting, the child's upward path is the child followed by the parent's upward path, so its events reach the parent |
| ChainTree.AddedListenerReceivesEveryEvent | agents-flex-core/src/main/java/com/agentsflex/chain/Chain.java:142-144 | a node that listens for events is called for every event of the chain it was added to |
| Lifecycle.SetStatus | agents-flex-core/src/main/java/com/agentsflex/chain/Chain.java:188-195 | setting a status changes only that chain's status; a real change announces one status-change event with the new and the previous status, and setting the current status is silent |
| Lifecycle.SetStatusIdempotent | agents-flex-core/src/main/java/com/agentsflex/chain/Chain.java:188-195 | setting the same status twice changes nothing and says nothing the second time |
| Lifecycle.StatusChangeOncePerChange | agents-flex-core/src/main/java/com/agentsflex/chain/Chain.java:188-195 | a series of status settings raises exactly one status-change event per actual change and nothing else |
| Lifecycle.WaitInput | agents-flex-core/src/main/java/com/agentsflex/chain/Chain.java:320-323 | waitInput pauses the chain for input and appends the parameters to its wait set, raising only the status change |
| Lifecycle.WaitForNothingPauses | agents-flex-core/src/main/java/com/agentsflex/chain/Chain.java:320-323 | waiting for no parameters pauses any chain, announces the change once, and leaves its wait set as it was, so an empty wait set stays empty |
| Lifecycle.Stop | agents-flex-core/src/main/java/com/agentsflex/chain/Chain.java:337-351 | a stop, however far it cascades, changes no chain's parent, listeners or nodes; its effect on each chain and its signals are stated by the stop lemmas below |
| Lifecycle.StopReachesEachAncestor | agents-flex-core/src/main/java/com/agentsflex/chain/Chain.java:337-351 | a stop gives the chain and every ancestor the stop message and the final status |
| Lifecycle.StopTouchesOnlyThePath | agents-flex-core/src/main/java/com/agentsflex/chain/Chain.java:337-351 | a stop leaves every chain off the upward path unchanged |
| Lifecycle.StopSignals | agents-flex-core/src/main/java/com/agentsflex/chain/Chain.java:337-351 | a stop raises, in path order, each path chain's status-change event, skipped where the status already was final |
| Lifecycle.StopSignalsAreStatusChanges | agents-flex-core/src/main/java/com/agentsflex/chain/Chain.java:337-351 | a stop raises nothing but status-change events |
| Lifecycle.StopNormal | agents-flex-core/src/main/java/com/agentsflex/chain/Chain.java:337-343 | stopNormal finishes the chain and every ancestor normally with the message (a null message included, which clears it), touches no other chain, and announces each real change along the path |
| Lifecycle.StopError | agents-flex-core/src/main/java/com/agentsflex/chain/Chain.java:345-351 | stopError finishes the chain and every ancestor abnormally with the message (a null message included, which clears it), touches no other chain, and announces each real change along the path |
| Lifecycle.MessageOfLastStop | agents-flex-core/src/main/java/com/agentsflex/chain/Chain.java:337-351 | after a run of hook calls the chain's message is the last stop's message, or unchanged if nothing stopped it |
| Lifecycle.WaitSetGrows | agents-flex-core/src/main/java/com/agentsflex/chain/Chain.java:320-323 | the hook's wait calls only ever append to the wait set, in call order |
| Lifecycle.MemoryOfLastStore | agents-flex-core/src/main/java/com/agentsflex/chain/Chain.java:218-220 | after the hook's calls, a key reads the value stored last, or its value from before the calls |
| Lifecycle.PlainCallsKeepStatus | agents-flex-core/src/main/java/com/agentsflex/chain/Chain.java:353-358 | a hook that only outputs and stores values leaves status, message and wait set as they were |
| Lifecycle.ApplyCall | agents-flex-core/src/main/java/com/agentsflex/chain/Chain.java:320-358 | a hook call changes its chain as the record-level model says, touches other chains only by a stop's cascade, never rewires; an output raises exactly its one output signal, a store raises nothing, a wait or a status setting raises its chain's status change if the status differs, and a stop raises the status changes along the upward path |
| Lifecycle.ApplyCalls | agents-flex-core/src/main/java/com/agentsflex/chain/Chain.java:320-358 | a run of hook calls changes its chain as the record-level model says, raises only status changes and outputs, and its outputs are exactly the hook's output calls, in call order |
| Lifecycle.Enter | agents-flex-core/src/main/java/com/agentsflex/chain/Chain.java:289-297 | the run merges the variables into memory (when there are any), announces the start first, and then enters START, announcing that change unless the chain already was in START; no other chain changes |
| Lifecycle.Settle | agents-flex-core/src/main/java/com/agentsflex/chain/Chain.java:299-311 | after a run the status is never START or ERROR; a thrown failure ends FINISHED_ABNORMAL, and any other status set by the hook is kept |
| Lifecycle.Catch | agents-flex-core/src/main/java/com/agentsflex/chain/Chain.java:298-300 | a thrown failure sets ERROR and announces the failure: the status change to ERROR (unless the chain already was in ERROR) and then the error event, nothing else; a normal return changes nothing |
| Lifecycle.Normalise | agents-flex-core/src/main/java/com/agentsflex/chain/Chain.java:306-310 | START becomes FINISHED_NORMAL and ERROR becomes FINISHED_ABNORMAL, each announced by exactly one status-change event; other statuses are kept and nothing is announced |
| Lifecycle.Leave | agents-flex-core/src/main/java/com/agentsflex/chain/Chain.java:301-313 | the end of a run asks the input listeners for the wait set exactly when it is non-empty, settles the status, and announces the finish last |
| Lifecycle.LeaveOrder | agents-flex-core/src/main/java/com/agentsflex/chain/Chain.java:298-313 | the end of a run in full: after a thrown failure, the change to ERROR (if any), the error event, the input request when parameters are awaited, the change to FINISHED_ABNORMAL and the finish event, in that order; after a return, the input request, the change to the settled status (if any) and the finish event |
| Lifecycle.LeaveReportsFailureFirst | agents-flex-core/src/main/java/com/agentsflex/chain/Chain.java:298-310 | a thrown failure is announced before the status change from ERROR to FINISHED_ABNORMAL |
| Lifecycle.BracketsOnlyAtEnds | agents-flex-core/src/main/java/com/agentsflex/chain/Chain.java:293-313 | for a hook that only calls its own chain, no start or finish event occurs strictly inside a run |
| Lifecycle.InputRequestsOnlyAtTheEnd | agents-flex-core/src/main/java/com/agentsflex/chain/Chain.java:302-305 | input listeners are only called after the hook has finished |
| Lifecycle.RunInLifeCycle | agents-flex-core/src/main/java/com/agentsflex/chain/Chain.java:289-314 | for a hook that only calls its own chain, a run opens with the start event, closes with the finish event, has no bracket in between, never ends in START or ERROR, ends FINISHED_ABNORMAL and announces the failure when the hook throws, and asks for input exactly when parameters are still awaited |
| Lifecycle.RunReportsFailureBeforeFinish | agents-flex-core/src/main/java/com/agentsflex/chain/Chain.java:293-313 | a run whose hook throws ends with the change from ERROR to FINISHED_ABNORMAL and then the finish event, and announces the failure before them |
| Lifecycle.RunOutputs | agents-flex-core/src/main/java/com/agentsflex/chain/Chain.java:289-314 | the output signals a whole run raises (which `EventBus.Expand` turns into the output cascades) are exactly its hook's output calls, in call order |
| Execution.Execute | agents-flex-core/src/main/java/com/agentsflex/chain/Chain.java:238-242 | execute runs the lifecycle with the single variable and is bracketed by start and finish |
| Execution.ExecuteHookSeesVariable | agents-flex-core/src/main/java/com/agentsflex/chain/Chain.java:238-242 | the hook of an execute sees the variable under its key and runs in START |
| Execution.ExecuteForResult | agents-flex-core/src/main/java/com/agentsflex/chain/Chain.java:248-258 | executeForResult succeeds exactly when the run finished normally, returning the result key's value, and otherwise throws with the chain's message |
| Execution.PlainRunSucceeds | agents-flex-core/src/main/java/com/agentsflex/chain/Chain.java:248-258 | a hook that only stores and outputs and then returns makes executeForResult succeed |
| Execution.ForResultReturnsLastStored | agents-flex-core/src/main/java/com/agentsflex/chain/Chain.java:248-258 | with such a hook the result is the value stored last under the result key |
| Execution.ForResultEchoesInput | agents-flex-core/src/main/java/com/agentsflex/chain/Chain.java:244-258 | executeForResult(variable) returns the variable itself when the hook never overwrites the default key |
| Execution.ForResultFailureKeepsMessage | agents-flex-core/src/main/java/com/agentsflex/chain/Chain.java:248-258 | a thrown failure makes executeForResult throw, and without a stop call it carries the message from before the run |
| Execution.ForResultAfterStopError | agents-flex-core/src/main/java/com/agentsflex/chain/Chain.java:248-258 | a hook ending with stopError makes executeForResult throw with that stop's message, so stopError(null) gives an exception with a null message |
| Execution.ForResultPausedFails | agents-flex-core/src/main/java/com/agentsflex/chain/Chain.java:248-258 | a run that ends waiting for input makes executeForResult throw, leaving the chain paused with the requested parameters awaited |
| Execution.AllSupplied | agents-flex-core/src/main/java/com/agentsflex/chain/Chain.java:278-282 | the check passes exactly when every awaited parameter has a non-null value among the variables |
| Execution.Resume | agents-flex-core/src/main/java/com/agentsflex/chain/Chain.java:268-287 | resume is accepted exactly when the chain is paused, the variables are non-empty and every awaited parameter is supplied; a refusal changes nothing and raises nothing; acceptance clears the wait set and runs the resume hook in the lifecycle, opening with the start event, closing with the finish event, announcing a thrown failure, and asking for input exactly when the resume hook waited again |
| Execution.ResumeRun | agents-flex-core/src/main/java/com/agentsflex/chain/Chain.java:284-286 | an accepted resume clears the wait set and runs the resume hook in the lifecycle; the run opens with the start event and closes with the finish event with none in between, announces a thrown failure, and afterwards the chain awaits exactly what the resume hook asked for, the input listeners being asked for it exactly when that is non-empty |
| Execution.WaitThenResume | agents-flex-core/src/main/java/com/agentsflex/chain/Chain.java:268-287 | after waiting for some parameters, resume is accepted exactly when non-empty variables supply every one of them |
| Execution.ExpandBracketed | agents-flex-core/src/main/java/com/agentsflex/chain/Chain.java:293-313 | for a hook that only calls its own chain, delivered to listeners, a run (which opens with the start event and closes with the finish event) begins with the start event at the chain and each ancestor and ends with the finish event likewise |
| SparkLlm.ParseMessageStatus | agents-flex-llm/agents-flex-llm-spark/src/main/java/com/agentsflex/llm/spark/SparkLlmUtil.java:72-82 | 0, 1, 2 decode to start, middle, end; every other integer is unknown; a null status fails |
| SparkLlm.KnownStatusRoundTrip | agents-flex-llm/agents-flex-llm-spark/src/main/java/com/agentsflex/llm/spark/SparkLlmUtil.java:72-82 | every known status has a code that decodes back to it |
| SparkLlm.KnownCodeRoundTrip | agents-flex-llm/agents-flex-llm-spark/src/main/java/com/agentsflex/llm/spark/SparkLlmUtil.java:72-82 | a code that decodes to a known status is that status's code |
| SparkLlm.DecodeInjectiveOnKnown | agents-flex-llm/agents-flex-llm-spark/src/main/java/com/agentsflex/llm/spark/SparkLlmUtil.java:72-82 | no two codes decode to the same known status |
| OpenAiStatus.ParseMessageStatus | agents-flex-llm/agents-flex-llm-openai/src/main/java/com/agentsflex/llm/openai/OpenAiLLmUtil.java:63-65 | the message ends exactly when the finish reason is "stop", null included among the rest, and is otherwise in the middle |
| OpenAiStatus.StatusRoundTrip | agents-flex-llm/agents-flex-llm-openai/src/main/java/com/agentsflex/llm/openai/OpenAiLLmUtil.java:63-65 | the middle and the end status each have a finish reason the vendor sends ("stop", or none) that decodes back to them |
| OpenAiStatus.ReasonRoundTrip | agents-flex-llm/agents-flex-llm-openai/src/main/java/com/agentsflex/llm/openai/OpenAiLLmUtil.java:63-65 | every finish reason decodes like its status's canonical reason, and the only reason that ends a message is "stop" itself |
| OpenAiPayload.KeyNamesDistinct | agents-flex-llm/agents-flex-llm-openai/src/main/java/com/agentsflex/llm/openai/OpenAiLLmUtil.java:78-84 | two request keys have the same name exactly when they are the same key |
| OpenAiPayload.Put | agents-flex-llm/agents-flex-llm-openai/src/main/java/com/agentsflex/llm/openai/OpenAiLLmUtil.java:78-79 | a put adds or overwrites one key and keeps every other key's value |
| OpenAiPayload.PromptToPayload | agents-flex-llm/agents-flex-llm-openai/src/main/java/com/agentsflex/llm/openai/OpenAiLLmUtil.java:77-87 | model and messages are always present; stream exactly when streaming; tools exactly when there are some, and then tool_choice "auto"; temperature and max_tokens exactly when positive and no tools are offered |
| OpenAiPayload.PayloadKeysAreExpected | agents-flex-llm/agents-flex-llm-openai/src/main/java/com/agentsflex/llm/openai/OpenAiLLmUtil.java:77-87 | the payload carries exactly the keys an independent statement of the rules expects |
| OpenAiPayload.ToolsExcludeSamplingLimits | agents-flex-llm/agents-flex-llm-openai/src/main/java/com/agentsflex/llm/openai/OpenAiLLmUtil.java:81-84 | offering tools removes temperature and max_tokens whatever their values |
| MilvusExpression.ToSymbol | agents-flex-store/agents-flex-store-milvus/src/main/java/com/agentsflex/store/milvus/MilvusExpressionAdaptor.java:30-36 | equality is written " == "; every other symbol is the generic adaptor's |
| MilvusExpression.ToCondition | agents-flex-store/agents-flex-store-milvus/src/main/java/com/agentsflex/store/milvus/MilvusExpressionAdaptor.java:40-52 | BETWEEN becomes a conjunction of a lower and an upper bound on the left side from the first two array items, fails on a non-array value or a short array, and other conditions are the generic adaptor's |
| MilvusExpression.BetweenUsesFirstTwo | agents-flex-store/agents-flex-store-milvus/src/main/java/com/agentsflex/store/milvus/MilvusExpressionAdaptor.java:41-49 | items past the second do not change a BETWEEN condition |
| MilvusExpression.ToValue | agents-flex-store/agents-flex-store-milvus/src/main/java/com/agentsflex/store/milvus/MilvusExpressionAdaptor.java:55-68 | an IN value is rendered only from an object array, null fails and a non-array fails the cast; other conditions are the generic adaptor's |
| MilvusExpression.JoinIn | agents-flex-store/agents-flex-store-milvus/src/main/java/com/agentsflex/store/milvus/MilvusExpressionAdaptor.java:57-64 | the joiner loop produces the bracketed, comma-separated list of the quoted non-null items |
| MilvusExpression.SplitJoin | agents-flex-store/agents-flex-store-milvus/src/main/java/com/agentsflex/store/milvus/MilvusExpressionAdaptor.java:58 | splitting a comma-joined list of comma-free parts gives the parts back |
| MilvusExpression.InListRoundTrip | agents-flex-store/agents-flex-store-milvus/src/main/java/com/agentsflex/store/milvus/MilvusExpressionAdaptor.java:55-68 | reading an IN list back gives exactly the non-null items in order, when no item contains a comma |
| MilvusExpression.PresentCountsNonNull | agents-flex-store/agents-flex-store-milvus/src/main/java/com/agentsflex/store/milvus/MilvusExpressionAdaptor.java:59-63 | null items are skipped: the list holds one entry per non-null item |
| MilvusExpression.EmptyInList | agents-flex-store/agents-flex-store-milvus/src/main/java/com/agentsflex/store/milvus/MilvusExpressionAdaptor.java:57-64 | an array of nulls only renders as the empty list "[]" |

## Left out

- Thread safety: the `synchronized` registration methods and the comment about concurrent writers to the wait set are not modelled. All operations are sequential.
- Listener re-entry: callbacks are opaque deliveries, and a listener that calls back into the chain is not modelled.
- Delivery order across event classes: the Java `HashMap` walks its classes in an unspecified order (the keys hash by identity). The model fixes one: at each chain, the listeners under the base event class come first, then those under the event's own kind, each list in its own order. `EventBus.LocalEvent`'s contract states that order, so every notification sequence built from it (`EventBus.Notify`, `EventBus.Expand` and the run traces) does too; the Java code promises only the order within each class's list and which listeners are called how often.
- Ids and plumbing: the chain id (a random UUID), `toString`, the plain getters and setters, and the `children` list (never read by the core) are not modelled.
- `addNode(Agent)` (Chain.java:149-151) only wraps the agent in a fresh `AgentNode` and calls `addNode(ChainNode)`. `ChainTree.AddNode` models `addNode(ChainNode)`, which covers both agent steps and nested chains, so the wrapper has no member of its own.
- ChainTree.AddNode: requires that a nested chain is not the chain itself or one of its ancestors. The code accepts such an add, but afterwards `notifyEvent`, the stops (through `setStatus`) and `output` from that chain recurse without end, and so does `getGlobal` whenever no chain on the cycle holds a non-null value for the key (it returns at the first non-null value). The recursion ends in a `StackOverflowError`, which `catch (Exception e)` does not catch. `ChainTree.Attach` is the unguarded add, and `ChainTree.CyclicAttachBreaksValid` shows that the arena is no longer acyclic after it (see Findings).
- Nested runs: a hook acts only on its own chain, so a run cannot start a nested chain's run. In the code, a nested chain's start and finish events reach the parent mid-run through `notifyEvent`'s cascade, so `Lifecycle.BracketsOnlyAtEnds`, `Lifecycle.RunInLifeCycle`'s "no bracket in between" and `Execution.ExpandBracketed` hold only for hooks that call their own chain.
- Lifecycle.RunInLifeCycle: every failure a hook throws is caught. In the code `catch (Exception e)` does not catch a `java.lang.Error`; for one of those, `ERROR`, the error event and the normalisation are skipped, the input request and the finish event still happen, the error propagates, and the chain is left in whatever status the hook set (`START` if none).
- Lifecycle.Leave: the input listeners receive the wait set's contents at that moment. The code passes the live `waitInputParameters` list, which a later `resume` clears in place, so a listener that keeps the list sees it emptied.
- `registerInputListener` and `registerOutputListener` are plain list appends. They are not separate members; the lists are fields of `Chain`.
- `Output.DEFAULT_VALUE_KEY`: its value is defined outside this core, so it is the `resultKey` parameter of `Execution.ExecuteForResult`.
- `execute(Object)` and `executeForResult(Object)` are the keyed forms applied to that default key and have no members of their own.
- `Parameter` keeps only its name; its other metadata plays no part in the core.
- Prompt formatting: the JSON text of the OpenAI payload, the prompt formatting of messages and functions, and the `ChatOptions` defaults are left out. Messages and tools are opaque values.
- OpenAiPayload.PromptToPayload: the temperature is a real number, so a `NaN` temperature (which fails `> 0` in Java) is not represented. A null `maxTokens`, which would fail to unbox, is not modelled either.
- The OpenAI embeddings payload, the Spark `promptToPayload` and `createURL`, and the vendors' message parsers are outside the modelled core.
- MilvusExpression: the generic `ExpressionAdaptor` defaults (`condition`, `value`, `symbol`, the left side) are function parameters, since that interface is not part of this model. In Java those defaults call back into the Milvus overrides (the default `toCondition` uses this adaptor's `toSymbol` and `toValue`), so the model does not promise anything about how they render `EQ` or `IN` inside another condition. Java `toString` of the array items is represented by the items' text.

## Findings

| source | as written | input that shows it | evidently intended | confidence | as-written member | corrected member |
|---|---|---|---|---|---|---|
| agents-flex-core/src/main/java/com/agentsflex/chain/Chain.java:135-147 | `addNode` sets a nested chain's parent without checking that the nested chain is not this chain or one of its ancestors | `chain.addNode(chain)`, then any run of `chain`: `notifyEvent` recurses from `chain` to itself | the chains form a tree, so every upward cascade ends at a root | medium, not executed | ChainTree.CyclicAttachBreaksValid | ChainTree.AddNode |

=== FILE: chain_arena.dfy ===
/**
  The data model of a workflow chain and of the arena that holds every chain.

  A chain is addressed by its index in the arena; its `parent` is an index, never
  an owning reference. A world is `Valid` when following parent indices from any
  chain reaches a root, so every upward recursion (event propagation, global
  lookup, cascading stop, output) terminates.
 */
module ChainArena {
  import opened Common

  type ChainId = nat
  type ListenerId = nat
  type AgentId = nat

  datatype ChainStatus =
    | Ready
    | Start
    | PauseForInput
    | PauseForWakeUp
    | Error
    | FinishedNormal
    | FinishedAbnormal

  /** A Java object reference stored in memory or passed in a variables map. */
  datatype Value = Null | Obj(ref: nat)

  /** A chain's context memory and the variables maps handed to execute/resume. */
  type Memory = map<string, Value>

  /** A required input of a paused chain, identified by its name. */
  datatype Parameter = Parameter(name: string)

  datatype EventKind = StartKind | FinishedKind | ErrorKind | StatusChangeKind

  datatype ChainEvent =
    | OnStart
    | OnFinished
    | OnError(failure: string)
    | OnStatusChange(status: ChainStatus, before: ChainStatus)

  function KindOf(e: ChainEvent): EventKind
  {
    match e
    case OnStart => StartKind
    case OnFinished => FinishedKind
    case OnError(_) => ErrorKind
    case OnStatusChange(_, _) => StatusChangeKind
  }

  /** The key a listener is registered under: the base event class or one variant. */
  datatype EventKey = AnyEvent | OnlyKind(kind: EventKind)

  /** Whether an event is an instance of the class a registry key stands for. */
  predicate Matches(key: EventKey, e: ChainEvent)
  {
    key.AnyEvent? || key.kind == KindOf(e)
  }

  /** Event listeners of one chain, grouped by the key they were registered under. */
  type Registry = map<EventKey, seq<ListenerId>>

  function Listeners(reg: Registry, key: EventKey): seq<ListenerId>
  {
    if key in reg then reg[key] else []
  }

  datatype NodeKind = AgentStep(agent: AgentId) | SubChain(chain: ChainId)

  /** A node of a chain; `listener` is present when the node also listens to chain events. */
  datatype Node = Node(kind: NodeKind, listener: Option<ListenerId>)

  datatype Chain = Chain(
    memory: Memory,
    eventListeners: Registry,
    inputListeners: seq<ListenerId>,
    outputListeners: seq<ListenerId>,
    nodes: seq<Node>,
    parent: Option<ChainId>,
    status: ChainStatus,
    message: Option<string>,
    waitInputParameters: seq<Parameter>)

  datatype World = World(chains: seq<Chain>)

  /** Replaces the record of chain `c`. */
  function WithChain(w: World, c: ChainId, ch: Chain): (w': World)
    requires c < |w.chains|
    ensures |w'.chains| == |w.chains| && w'.chains[c] == ch
    ensures forall i | 0 <= i < |w.chains| && i != c :: w'.chains[i] == w.chains[i]
  {
    World(w.chains[c := ch])
  }

  /** Number of parent steps from `c` to a root, when a root is reached within `fuel` steps. */
  function Height(w: World, c: ChainId, fuel: nat): Option<nat>
    decreases fuel
  {
    if c >= |w.chains| then None
    else match w.chains[c].parent
      case None => Some(0)
      case Some(p) =>
        if fuel == 0 then None
        else match Height(w, p, fuel - 1)
          case None => None
          case Some(h) => Some(h + 1)
  }

  ghost predicate Rooted(w: World, c: ChainId)
  {
    exists fuel: nat :: Height(w, c, fuel).Some?
  }

  /** Every chain reaches a root: the parent relation is acyclic and never dangles. */
  ghost predicate Valid(w: World)
  {
    forall c: ChainId | c < |w.chains| :: Rooted(w, c)
  }

  ghost function Depth(w: World, c: ChainId): nat
    requires Rooted(w, c)
  {
    var fuel: nat :| Height(w, c, fuel).Some?;
    Height(w, c, fuel).value
  }

  lemma {:induction false} HeightMonotone(w: World, c: ChainId, f: nat, g: nat)
    requires Height(w, c, f).Some? && f <= g
    ensures Height(w, c, g) == Height(w, c, f)
    decreases f
  {
    if c < |w.chains| && w.chains[c].parent.Some? {
      HeightMonotone(w, w.chains[c].parent.value, f - 1, g - 1);
    }
  }

  /** The depth of a chain is the height found with any sufficient fuel. */
  lemma DepthIs(w: World, c: ChainId, fuel: nat)
    requires Height(w, c, fuel).Some?
    ensures Rooted(w, c) && Depth(w, c) == Height(w, c, fuel).value
  {
    var f0: nat :| Height(w, c, f0).Some? && Height(w, c, f0).value == Depth(w, c);
    if f0 <= fuel {
      HeightMonotone(w, c, f0, fuel);
    } else {
      HeightMonotone(w, c, fuel, f0);
    }
  }

  /** A parent exists in the arena and sits exactly one level closer to the root. */
  lemma ParentCloserToRoot(w: World, c: ChainId)
    requires Valid(w) && c < |w.chains| && w.chains[c].parent.Some?
    ensures w.chains[c].parent.value < |w.chains|
    ensures Rooted(w, w.chains[c].parent.value)
    ensures Depth(w, w.chains[c].parent.value) + 1 == Depth(w, c)
  {
    var p := w.chains[c].parent.value;
    assert Rooted(w, c);
    var f: nat :| Height(w, c, f).Some?;
    DepthIs(w, c, f);
    DepthIs(w, p, f - 1);
  }

  /** A root chain has depth zero. */
  lemma RootDepth(w: World, c: ChainId)
    requires c < |w.chains| && w.chains[c].parent.None?
    ensures Rooted(w, c) && Depth(w, c) == 0
  {
    DepthIs(w, c, 0);
  }

  /**
    The chain itself followed by its ancestors, nearest first: the route every
    upward signal takes.
   */
  function UpPath(w: World, c: ChainId): (path: seq<ChainId>)
    requires Valid(w) && c < |w.chains|
    ensures 0 < |path| && path[0] == c && c in path
    ensures forall i | 0 <= i < |path| :: path[i] < |w.chains|
    decreases Depth(w, c)
  {
    match w.chains[c].parent
    case None => [c]
    case Some(p) =>
      ParentCloserToRoot(w, c);
      [c] + UpPath(w, p)
  }

  /** The path follows parent links one step at a time and ends at a root. */
  lemma {:induction false} UpPathFollowsParents(w: World, c: ChainId)
    requires Valid(w) && c < |w.chains|
    ensures forall i | 0 <= i < |UpPath(w, c)| - 1 :: w.chains[UpPath(w, c)[i]].parent == Some(UpPath(w, c)[i + 1])
    ensures w.chains[UpPath(w, c)[|UpPath(w, c)| - 1]].parent.None?
    decreases Depth(w, c)
  {
    if w.chains[c].parent.Some? {
      var p := w.chains[c].parent.value;
      ParentCloserToRoot(w, c);
      UpPathFollowsParents(w, p);
      assert UpPath(w, c) == [c] + UpPath(w, p);
    }
  }

  /** Each step up the path brings the chain one level closer to the root. */
  lemma {:induction false} UpPathDepths(w: World, c: ChainId)
    requires Valid(w) && c < |w.chains|
    ensures forall i | 0 <= i < |UpPath(w, c)| ::
      Rooted(w, UpPath(w, c)[i]) && Depth(w, UpPath(w, c)[i]) + i == Depth(w, c)
    decreases Depth(w, c)
  {
    if w.chains[c].parent.Some? {
      var p := w.chains[c].parent.value;
      ParentCloserToRoot(w, c);
      UpPathDepths(w, p);
      assert UpPath(w, c) == [c] + UpPath(w, p);
    }
  }

  /** No chain occurs twice on an upward path, so each ancestor is visited once. */
  lemma UpPathDistinct(w: World, c: ChainId)
    requires Valid(w) && c < |w.chains|
    ensures forall i, j | 0 <= i < j < |UpPath(w, c)| :: UpPath(w, c)[i] != UpPath(w, c)[j]
  {
    UpPathDepths(w, c);
  }

  /** A chain is not on its parent's path to the root. */
  lemma NotOnParentPath(w: World, c: ChainId)
    requires Valid(w) && c < |w.chains| && w.chains[c].parent.Some?
    ensures w.chains[c].parent.value < |w.chains|
    ensures UpPath(w, c) == [c] + UpPath(w, w.chains[c].parent.value)
    ensures c !in UpPath(w, w.chains[c].parent.value)
  {
    UpPathDistinct(w, c);
    var path := UpPath(w, c);
    assert path[1..] == UpPath(w, w.chains[c].parent.value);
  }

  /** Two worlds of the same size whose chains have the same parents. */
  predicate SameParents(w: World, w': World)
  {
    && |w.chains| == |w'.chains|
    && forall i | 0 <= i < |w.chains| :: w.chains[i].parent == w'.chains[i].parent
  }

  /** Two worlds whose chains agree on every parent, listener list and node list. */
  predicate SameWiring(w: World, w': World)
  {
    && |w.chains| == |w'.chains|
    && forall i | 0 <= i < |w.chains| ::
      && w.chains[i].parent == w'.chains[i].parent
      && w.chains[i].eventListeners == w'.chains[i].eventListeners
      && w.chains[i].inputListeners == w'.chains[i].inputListeners
      && w.chains[i].outputListeners == w'.chains[i].outputListeners
      && w.chains[i].nodes == w'.chains[i].nodes
  }

  lemma {:induction false} HeightSameParents(w: World, w': World, c: ChainId, f: nat)
    requires SameParents(w, w')
    ensures Height(w', c, f) == Height(w, c, f)
    decreases f
  {
    if c < |w.chains| && w.chains[c].parent.Some? && f > 0 {
      HeightSameParents(w, w', w.chains[c].parent.value, f - 1);
    }
  }

  /** Changing anything but the parents keeps a world valid and every depth as it was. */
  lemma ValidSameParents(w: World, w': World)
    requires Valid(w) && SameParents(w, w')
    ensures Valid(w')
    ensures forall c | 0 <= c < |w.chains| :: Depth(w', c) == Depth(w, c)
  {
    forall c | 0 <= c < |w.chains|
      ensures Rooted(w', c) && Depth(w', c) == Depth(w, c)
    {
      assert Rooted(w, c);
      var f: nat :| Height(w, c, f).Some?;
      HeightSameParents(w, w', c, f);
      DepthIs(w, c, f);
      DepthIs(w', c, f);
    }
  }

  /** Keeping the wiring twice keeps it across both steps. */
  lemma SameWiringTrans(a: World, b: World, c: World)
    requires SameWiring(a, b) && SameWiring(b, c)
    ensures SameWiring(a, c)
  {
  }

  /** A step that keeps the wiring keeps the world valid. */
  lemma ValidSameWiring(w: World, w': World)
    requires Valid(w) && SameWiring(w, w')
    ensures Valid(w')
  {
    ValidSameParents(w, w');
  }

  lemma {:induction false} UpPathSameParents(w: World, w': World, c: ChainId)
    requires Valid(w) && SameParents(w, w') && c < |w.chains|
    ensures Valid(w') && UpPath(w', c) == UpPath(w, c)
    decreases Depth(w, c)
  {
    ValidSameParents(w, w');
    if w.chains[c].parent.Some? {
      ParentCloserToRoot(w, c);
      UpPathSameParents(w, w', w.chains[c].parent.value);
    }
  }
}

=== FILE: chain_memory.dfy ===
/**
  Context memory: a chain's own key/value store, read locally with `get` and
  through the ancestors with `getGlobal`.
 */
module ChainMemory {
  import opened Common
  import opened ChainArena

  /** Map lookup as Java's `Map.get`: a missing key reads as null. */
  function Get(m: Memory, key: string): Value
  {
    if key in m then m[key] else Null
  }

  /** putAll: every entry of `vars` overrides, every other key keeps its value. */
  function PutAll(m: Memory, vars: Memory): (r: Memory)
    ensures r.Keys == m.Keys + vars.Keys
    ensures forall k | k in vars :: Get(r, k) == vars[k]
    ensures forall k | k !in vars :: Get(r, k) == Get(m, k)
  {
    m + vars
  }

  /** get: the chain's own memory only; a key it does not hold reads as null. */
  function ChainGet(w: World, c: ChainId, key: string): (v: Value)
    requires c < |w.chains|
    ensures key in w.chains[c].memory ==> v == w.chains[c].memory[key]
    ensures key !in w.chains[c].memory ==> v == Null
  {
    Get(w.chains[c].memory, key)
  }

  /** getGlobal: the local value if non-null, else the parent's getGlobal, else null at a root. */
  function GetGlobal(w: World, c: ChainId, key: string): (v: Value)
    requires Valid(w) && c < |w.chains|
    ensures ChainGet(w, c, key) != Null ==> v == ChainGet(w, c, key)
    ensures v != Null ==> exists i | 0 <= i < |UpPath(w, c)| :: ChainGet(w, UpPath(w, c)[i], key) == v
    decreases Depth(w, c)
  {
    var local := ChainGet(w, c, key);
    if local != Null then (assert UpPath(w, c)[0] == c; local)
    else match w.chains[c].parent
      case None => Null
      case Some(p) =>
        ParentCloserToRoot(w, c);
        var v := GetGlobal(w, p, key);
        assert v != Null ==> exists i | 0 <= i < |UpPath(w, c)| :: ChainGet(w, UpPath(w, c)[i], key) == v by {
          if v != Null {
            var i :| 0 <= i < |UpPath(w, p)| && ChainGet(w, UpPath(w, p)[i], key) == v;
            assert UpPath(w, c)[i + 1] == UpPath(w, p)[i];
          }
        }
        v
  }

  /** The first non-null value of `key` along a path of chains, or null. */
  function Nearest(w: World, path: seq<ChainId>, key: string): Value
  {
    if |path| == 0 then Null
    else if path[0] < |w.chains| && ChainGet(w, path[0], key) != Null then ChainGet(w, path[0], key)
    else Nearest(w, path[1..], key)
  }

  /** getGlobal returns the value held by the nearest chain, counting from `c` upward, that has one. */
  lemma {:induction false} GetGlobalIsNearest(w: World, c: ChainId, key: string)
    requires Valid(w) && c < |w.chains|
    ensures GetGlobal(w, c, key) == Nearest(w, UpPath(w, c), key)
    decreases Depth(w, c)
  {
    if ChainGet(w, c, key) == Null && w.chains[c].parent.Some? {
      ParentCloserToRoot(w, c);
      GetGlobalIsNearest(w, w.chains[c].parent.value, key);
      assert UpPath(w, c)[1..] == UpPath(w, w.chains[c].parent.value);
    }
  }

  /** getGlobal finds nothing exactly when no chain from `c` up to the root holds a value. */
  lemma GetGlobalAbsent(w: World, c: ChainId, key: string)
    requires Valid(w) && c < |w.chains|
    ensures GetGlobal(w, c, key) == Null <==>
      forall i | 0 <= i < |UpPath(w, c)| :: ChainGet(w, UpPath(w, c)[i], key) == Null
  {
    GetGlobalIsNearest(w, c, key);
    NearestAbsent(w, UpPath(w, c), key);
  }

  lemma {:induction false} NearestAbsent(w: World, path: seq<ChainId>, key: string)
    requires forall i | 0 <= i < |path| :: path[i] < |w.chains|
    ensures Nearest(w, path, key) == Null <==>
      forall i | 0 <= i < |path| :: ChainGet(w, path[i], key) == Null
  {
    if |path| > 0 {
      NearestAbsent(w, path[1..], key);
      assert forall i | 1 <= i < |path| :: path[i] == path[1..][i - 1];
    }
  }
}

=== FILE: chain_tree.dfy ===
/**
  Composition of chains: adding a node to a chain, which links a nested chain to
  its new parent and subscribes a listening node to every chain event.
 */
module ChainTree {
  import opened Common
  import opened ChainArena
  import opened EventBus

  /** Worlds of the same size whose chains have the same parents, except possibly chain `k`. */
  predicate SameParentsExcept(w: World, w': World, k: ChainId)
  {
    && |w.chains| == |w'.chains|
    && forall i | 0 <= i < |w.chains| && i != k :: w.chains[i].parent == w'.chains[i].parent
  }

  /** A chain whose route to the root avoids `k` keeps its height when only `k` is re-parented. */
  lemma {:induction false} HeightAvoiding(w: World, w': World, k: ChainId, y: ChainId, f: nat)
    requires Valid(w) && y < |w.chains| && SameParentsExcept(w, w', k) && k !in UpPath(w, y)
    ensures Height(w', y, f) == Height(w, y, f)
    decreases f
  {
    assert y != k by { assert UpPath(w, y)[0] == y; }
    if w.chains[y].parent.Some? && f > 0 {
      var q := w.chains[y].parent.value;
      ParentCloserToRoot(w, y);
      assert UpPath(w, y) == [y] + UpPath(w, q);
      HeightAvoiding(w, w', k, q, f - 1);
    }
  }

  /** A chain whose route to the root avoids `k` keeps its route when only `k` is re-parented. */
  lemma {:induction false} UpPathAvoiding(w: World, w': World, k: ChainId, y: ChainId)
    requires Valid(w) && Valid(w') && y < |w.chains| && SameParentsExcept(w, w', k) && k !in UpPath(w, y)
    ensures UpPath(w', y) == UpPath(w, y)
    decreases Depth(w, y)
  {
    assert y != k by { assert UpPath(w, y)[0] == y; }
    if w.chains[y].parent.Some? {
      var q := w.chains[y].parent.value;
      ParentCloserToRoot(w, y);
      assert UpPath(w, y) == [y] + UpPath(w, q);
      UpPathAvoiding(w, w', k, q);
    }
  }

  /** Re-parenting `k` under a chain whose route avoids `k` leaves every chain rooted. */
  lemma {:induction false} RootedAfterReparent(w: World, w': World, k: ChainId, c: ChainId, x: ChainId)
    requires Valid(w) && SameParentsExcept(w, w', k)
    requires k < |w.chains| && c < |w.chains| && w'.chains[k].parent == Some(c) && k !in UpPath(w, c)
    requires x < |w.chains|
    ensures Rooted(w', x)
    decreases Depth(w, x)
  {
    if k !in UpPath(w, x) {
      assert Rooted(w, x);
      var f: nat :| Height(w, x, f).Some?;
      HeightAvoiding(w, w', k, x, f);
    } else if x == k {
      assert Rooted(w, c);
      var f: nat :| Height(w, c, f).Some?;
      HeightAvoiding(w, w', k, c, f);
      assert Height(w', k, f + 1).Some?;
    } else {
      assert w.chains[x].parent.Some?;
      var q := w.chains[x].parent.value;
      ParentCloserToRoot(w, x);
      assert UpPath(w, x) == [x] + UpPath(w, q);
      RootedAfterReparent(w, w', k, c, q);
      var f: nat :| Height(w', q, f).Some?;
      assert Height(w', x, f + 1).Some?;
    }
  }

  /**
    addNode as the code performs it, with no check on the nested chain: the
    node goes at the end of the chain's nodes, a nested chain gets this chain
    as its parent, and a listening node is registered under the base event
    kind. Nothing else changes.
   */
  function Attach(w: World, c: ChainId, node: Node): (w': World)
    requires c < |w.chains|
    requires node.kind.SubChain? ==> node.kind.chain < |w.chains|
    ensures |w'.chains| == |w.chains|
    ensures w'.chains[c].nodes == w.chains[c].nodes + [node]
    ensures node.listener.Some? ==>
      w'.chains[c].eventListeners == Register(w.chains[c].eventListeners, AnyEvent, node.listener.value)
    ensures node.listener.None? ==> w'.chains[c].eventListeners == w.chains[c].eventListeners
    ensures w'.chains[c] == w.chains[c].(nodes := w'.chains[c].nodes, eventListeners := w'.chains[c].eventListeners,
                                         parent := w'.chains[c].parent)
    ensures node.kind.SubChain? ==> w'.chains[node.kind.chain].parent == Some(c)
    ensures node.kind.SubChain? && node.kind.chain != c ==>
      w'.chains[node.kind.chain] == w.chains[node.kind.chain].(parent := Some(c))
    ensures !(node.kind.SubChain? && node.kind.chain == c) ==> w'.chains[c].parent == w.chains[c].parent
    ensures forall i | 0 <= i < |w.chains| && i != c && !(node.kind.SubChain? && i == node.kind.chain) ::
      w'.chains[i] == w.chains[i]
  {
    var w1 := match node.kind
      case SubChain(k) => WithChain(w, k, w.chains[k].(parent := Some(c)))
      case AgentStep(_) => w;
    var ch := w1.chains[c];
    var reg := if node.listener.Some? then Register(ch.eventListeners, AnyEvent, node.listener.value)
               else ch.eventListeners;
    WithChain(w1, c, ch.(eventListeners := reg, nodes := ch.nodes + [node]))
  }

  /**
    The attach the code performs, when the nested chain is not this chain or
    one of its ancestors: the arena stays acyclic, and the effect is the one
    `Attach` describes.
   */
  function AddNode(w: World, c: ChainId, node: Node): (w': World)
    requires Valid(w) && c < |w.chains|
    requires node.kind.SubChain? ==> node.kind.chain < |w.chains| && node.kind.chain !in UpPath(w, c)
    ensures Valid(w') && |w'.chains| == |w.chains|
    ensures w'.chains[c].nodes == w.chains[c].nodes + [node]
    ensures node.listener.Some? ==>
      w'.chains[c].eventListeners == Register(w.chains[c].eventListeners, AnyEvent, node.listener.value)
    ensures node.listener.None? ==> w'.chains[c].eventListeners == w.chains[c].eventListeners
    ensures w'.chains[c] == w.chains[c].(nodes := w'.chains[c].nodes, eventListeners := w'.chains[c].eventListeners)
    ensures node.kind.SubChain? ==>
      w'.chains[node.kind.chain] == w.chains[node.kind.chain].(parent := Some(c))
    ensures forall i | 0 <= i < |w.chains| && i != c && !(node.kind.SubChain? && i == node.kind.chain) ::
      w'.chains[i] == w.chains[i]
  {
    assert node.kind.SubChain? ==> c != node.kind.chain by { assert UpPath(w, c)[0] == c; }
    var w' := Attach(w, c, node);
    if node.kind.SubChain? then
      ReparentKeepsValid(w, w', node.kind.chain, c);
      w'
    else
      ValidSameParents(w, w');
      w'
  }

  /**
    Attaching a chain under itself or under one of its descendants closes a
    cycle: afterwards no chain whose route passed through the attached chain
    reaches a root within any number of steps, so the arena is no longer valid.
   */
  lemma CyclicAttachBreaksValid(w: World, c: ChainId, node: Node)
    requires Valid(w) && c < |w.chains|
    requires node.kind.SubChain? && node.kind.chain < |w.chains| && node.kind.chain in UpPath(w, c)
    ensures !Valid(Attach(w, c, node))
  {
    var w' := Attach(w, c, node);
    var k := node.kind.chain;
    forall f: nat ensures Height(w', k, f).None? {
      NoHeightThroughCycle(w, w', k, c, k, f);
    }
    assert !Rooted(w', k);
  }

  /** After the cycle closes, a chain whose old route passed through `k` has no height. */
  lemma {:induction false} NoHeightThroughCycle(w: World, w': World, k: ChainId, c: ChainId, x: ChainId, f: nat)
    requires Valid(w) && SameParentsExcept(w, w', k)
    requires c < |w.chains| && k in UpPath(w, c) && w'.chains[k].parent == Some(c)
    requires x < |w.chains| && k in UpPath(w, x)
    ensures Height(w', x, f).None?
    decreases f, Depth(w, x)
  {
    if x == k {
      if f > 0 {
        NoHeightThroughCycle(w, w', k, c, c, f - 1);
      }
    } else {
      assert w.chains[x].parent.Some?;
      var q := w.chains[x].parent.value;
      ParentCloserToRoot(w, x);
      assert UpPath(w, x) == [x] + UpPath(w, q);
      if f > 0 {
        NoHeightThroughCycle(w, w', k, c, q, f - 1);
      }
    }
  }

  lemma ReparentKeepsValid(w: World, w': World, k: ChainId, c: ChainId)
    requires Valid(w) && SameParentsExcept(w, w', k)
    requires k < |w.chains| && c < |w.chains| && w'.chains[k].parent == Some(c) && k !in UpPath(w, c)
    ensures Valid(w')
  {
    forall x | 0 <= x < |w'.chains| ensures Rooted(w', x) {
      RootedAfterReparent(w, w', k, c, x);
    }
  }

  /**
    After a nested chain is added, its route to the root is itself followed by
    the route of the chain it was added to: its events, outputs and stops now
    reach that chain and all of its ancestors.
   */
  lemma AddNodeLinksChild(w: World, c: ChainId, node: Node)
    requires Valid(w) && c < |w.chains|
    requires node.kind.SubChain? && node.kind.chain < |w.chains| && node.kind.chain !in UpPath(w, c)
    ensures UpPath(AddNode(w, c, node), node.kind.chain) == [node.kind.chain] + UpPath(w, c)
  {
    var w' := AddNode(w, c, node);
    var k := node.kind.chain;
    UpPathAvoiding(w, w', k, c);
    ParentCloserToRoot(w', k);
  }

  /** A listening node, once added, is among the receivers of every event raised on the chain. */
  lemma AddedListenerReceivesEveryEvent(w: World, c: ChainId, node: Node, e: ChainEvent)
    requires Valid(w) && c < |w.chains|
    requires node.kind.SubChain? ==> node.kind.chain < |w.chains| && node.kind.chain !in UpPath(w, c)
    requires node.listener.Some?
    ensures node.listener.value in Receivers(AddNode(w, c, node).chains[c].eventListeners, e)
  {
  }
}

=== FILE: common.dfy ===
/** Optional values and results shared by every module of the model. */
module Common {

  /** A value that may be absent; `None` stands for a Java `null`. */
  datatype Option<+T> = None | Some(value: T)

  /** The outcome of an operation that returns normally (`Ok`) or throws (`Err`). */
  datatype Result<+T, +E> = Ok(value: T) | Err(error: E)
}

=== FILE: event_bus.dfy ===
/**
  The per-chain listener registry and the propagation of chain signals.

  A `Signal` records one call of `notifyEvent`, `notifyInput` or `output` at the
  chain where it was raised. `Expand` turns signals into the listener callbacks
  they cause: an event or an output is delivered at its origin and then at every
  ancestor, nearest first; an input request is delivered at its origin only.
 */
module EventBus {
  import opened Common
  import opened ChainArena

  /** Registers a listener under a key, after the listeners already there. */
  function Register(reg: Registry, key: EventKey, l: ListenerId): (r: Registry)
    ensures Listeners(r, key) == Listeners(reg, key) + [l]
    ensures forall k | k != key :: Listeners(r, k) == Listeners(reg, k)
    ensures r.Keys == reg.Keys + {key}
  {
    reg[key := Listeners(reg, key) + [l]]
  }

  /** A listener list with every occurrence of `l` removed. */
  function Without(s: seq<ListenerId>, l: ListenerId): (r: seq<ListenerId>)
    ensures l !in r
    ensures forall x | x != l :: multiset(r)[x] == multiset(s)[x]
    ensures |r| <= |s|
  {
    if |s| == 0 then []
    else
      assert s == [s[0]] + s[1..];
      if s[0] == l then Without(s[1..], l)
      else [s[0]] + Without(s[1..], l)
  }

  /** Removal keeps the relative order of the listeners that stay. */
  lemma {:induction false} WithoutConcat(s: seq<ListenerId>, t: seq<ListenerId>, l: ListenerId)
    ensures Without(s + t, l) == Without(s, l) + Without(t, l)
  {
    if |s| > 0 {
      assert (s + t)[1..] == s[1..] + t;
      WithoutConcat(s[1..], t, l);
    } else {
      assert s + t == t;
    }
  }

  /** removeEventListener(listener): drops the listener from every key's list. */
  function RemoveEverywhere(reg: Registry, l: ListenerId): (r: Registry)
    ensures r.Keys == reg.Keys
    ensures forall k :: l !in Listeners(r, k)
    ensures forall k :: Listeners(r, k) == Without(Listeners(reg, k), l)
  {
    map k | k in reg :: Without(reg[k], l)
  }

  /** removeEventListener(eventClass, listener): drops the listener from one key's list only. */
  function RemoveUnder(reg: Registry, key: EventKey, l: ListenerId): (r: Registry)
    ensures r.Keys == reg.Keys
    ensures l !in Listeners(r, key)
    ensures Listeners(r, key) == Without(Listeners(reg, key), l)
    ensures forall k | k != key :: Listeners(r, k) == Listeners(reg, k)
  {
    if key in reg && |reg[key]| > 0 then reg[key := Without(reg[key], l)] else reg
  }

  /** Registering and then removing a listener everywhere leaves the lists as removal alone would. */
  lemma RemoveUndoesRegister(reg: Registry, key: EventKey, l: ListenerId)
    ensures forall k ::
      Listeners(RemoveEverywhere(Register(reg, key, l), l), k) == Listeners(RemoveEverywhere(reg, l), k)
  {
    forall k
      ensures Listeners(RemoveEverywhere(Register(reg, key, l), l), k) == Listeners(RemoveEverywhere(reg, l), k)
    {
      if k == key {
        WithoutConcat(Listeners(reg, key), [l], l);
      }
    }
  }

  /** The listeners an event reaches on one chain: those under the base key, then those under its own kind. */
  function Receivers(reg: Registry, e: ChainEvent): seq<ListenerId>
  {
    Listeners(reg, AnyEvent) + Listeners(reg, OnlyKind(KindOf(e)))
  }

  /** An event reaches exactly the listeners registered under a key it is an instance of. */
  lemma ReceiversMatch(reg: Registry, e: ChainEvent, l: ListenerId)
    ensures l in Receivers(reg, e) <==> exists key :: Matches(key, e) && l in Listeners(reg, key)
  {
    if exists key :: Matches(key, e) && l in Listeners(reg, key) {
      var key :| Matches(key, e) && l in Listeners(reg, key);
      assert key == AnyEvent || key == OnlyKind(KindOf(e));
    }
    if l in Listeners(reg, AnyEvent) {
      assert Matches(AnyEvent, e);
    } else if l in Receivers(reg, e) {
      assert Matches(OnlyKind(KindOf(e)), e);
    }
  }

  datatype Delivery =
    | EventDelivery(listener: ListenerId, chain: ChainId, event: ChainEvent)
    | InputDelivery(listener: ListenerId, chain: ChainId, parameters: seq<Parameter>)
    | OutputDelivery(listener: ListenerId, chain: ChainId, agent: AgentId, response: Value)

  datatype Signal =
    | Event(origin: ChainId, event: ChainEvent)
    | InputRequest(origin: ChainId, parameters: seq<Parameter>)
    | Output(origin: ChainId, agent: AgentId, response: Value)

  /**
    The callbacks one chain makes for an event on its own listeners: one per
    entry of the matching lists, in list order, so a listener registered twice
    is called twice.
   */
  function LocalEvent(w: World, a: ChainId, e: ChainEvent): (t: seq<Delivery>)
    ensures forall d | d in t :: d.chain == a
    ensures forall l :: EventDelivery(l, a, e) in t <==>
      a < |w.chains| && l in Receivers(w.chains[a].eventListeners, e)
    ensures forall d | d in t :: d == EventDelivery(d.listener, a, e)
    ensures a < |w.chains| ==> var rs := Receivers(w.chains[a].eventListeners, e);
      |t| == |rs| && forall i | 0 <= i < |t| :: t[i].listener == rs[i]
  {
    if a < |w.chains| then
      var rs := Receivers(w.chains[a].eventListeners, e);
      var t := seq(|rs|, i requires 0 <= i < |rs| => EventDelivery(rs[i], a, e));
      assert forall l | l in rs :: EventDelivery(l, a, e) in t by {
        forall l | l in rs ensures EventDelivery(l, a, e) in t {
          var i :| 0 <= i < |rs| && rs[i] == l;
          assert t[i] == EventDelivery(l, a, e);
        }
      }
      t
    else []
  }

  /** The callbacks one chain makes for an output: one per output-listener entry, in list order. */
  function LocalOutput(w: World, a: ChainId, agent: AgentId, response: Value): (t: seq<Delivery>)
    ensures forall d | d in t :: d.chain == a
    ensures forall l :: OutputDelivery(l, a, agent, response) in t <==>
      a < |w.chains| && l in w.chains[a].outputListeners
    ensures forall d | d in t :: d == OutputDelivery(d.listener, a, agent, response)
    ensures a < |w.chains| ==> var ls := w.chains[a].outputListeners;
      |t| == |ls| && forall i | 0 <= i < |t| :: t[i].listener == ls[i]
  {
    if a < |w.chains| then
      var ls := w.chains[a].outputListeners;
      var t := seq(|ls|, i requires 0 <= i < |ls| => OutputDelivery(ls[i], a, agent, response));
      assert forall l | l in ls :: OutputDelivery(l, a, agent, response) in t by {
        forall l | l in ls ensures OutputDelivery(l, a, agent, response) in t {
          var i :| 0 <= i < |ls| && ls[i] == l;
          assert t[i] == OutputDelivery(l, a, agent, response);
        }
      }
      t
    else []
  }

  /** notifyInput: one callback per input-listener entry, in list order, each told the pending parameters. */
  function LocalInput(w: World, a: ChainId, ps: seq<Parameter>): (t: seq<Delivery>)
    ensures forall d | d in t :: d.chain == a
    ensures forall l :: InputDelivery(l, a, ps) in t <==> a < |w.chains| && l in w.chains[a].inputListeners
    ensures forall d | d in t :: d == InputDelivery(d.listener, a, ps)
    ensures a < |w.chains| ==> var ls := w.chains[a].inputListeners;
      |t| == |ls| && forall i | 0 <= i < |t| :: t[i].listener == ls[i]
  {
    if a < |w.chains| then
      var ls := w.chains[a].inputListeners;
      var t := seq(|ls|, i requires 0 <= i < |ls| => InputDelivery(ls[i], a, ps));
      assert forall l | l in ls :: InputDelivery(l, a, ps) in t by {
        forall l | l in ls ensures InputDelivery(l, a, ps) in t {
          var i :| 0 <= i < |ls| && ls[i] == l;
          assert t[i] == InputDelivery(l, a, ps);
        }
      }
      t
    else []
  }

  /** notifyEvent: local listeners first, then the same event re-notified on the parent. */
  function Notify(w: World, c: ChainId, e: ChainEvent): (t: seq<Delivery>)
    requires Valid(w) && c < |w.chains|
    ensures forall d | d in t :: d.EventDelivery? && d.event == e
    decreases Depth(w, c)
  {
    match w.chains[c].parent
    case None => LocalEvent(w, c, e)
    case Some(p) =>
      ParentCloserToRoot(w, c);
      LocalEvent(w, c, e) + Notify(w, p, e)
  }

  /** output: local output listeners first, then the same output on the parent. */
  function OutputCascade(w: World, c: ChainId, agent: AgentId, response: Value): (t: seq<Delivery>)
    requires Valid(w) && c < |w.chains|
    ensures forall d | d in t :: d.OutputDelivery? && d.agent == agent && d.response == response
    decreases Depth(w, c)
  {
    match w.chains[c].parent
    case None => LocalOutput(w, c, agent, response)
    case Some(p) =>
      ParentCloserToRoot(w, c);
      LocalOutput(w, c, agent, response) + OutputCascade(w, p, agent, response)
  }

  /** Concatenation of `f` over a path, in path order. */
  function Along<T>(path: seq<ChainId>, f: ChainId -> seq<T>): seq<T>
  {
    if |path| == 0 then [] else f(path[0]) + Along(path[1..], f)
  }

  /** `Along` only looks at `f` on the chains of the path. */
  lemma {:induction false} AlongCongruent<T>(path: seq<ChainId>, f: ChainId -> seq<T>, g: ChainId -> seq<T>)
    requires forall i | 0 <= i < |path| :: f(path[i]) == g(path[i])
    ensures Along(path, f) == Along(path, g)
  {
    if |path| > 0 {
      assert forall i | 0 <= i < |path[1..]| :: path[1..][i] == path[i + 1];
      AlongCongruent(path[1..], f, g);
    }
  }

  /** The deliveries made on one chain, in trace order. */
  function At(t: seq<Delivery>, a: ChainId): (r: seq<Delivery>)
    ensures forall d | d in r :: d in t && d.chain == a
  {
    if |t| == 0 then [] else (if t[0].chain == a then [t[0]] else []) + At(t[1..], a)
  }

  lemma {:induction false} AtConcat(s: seq<Delivery>, t: seq<Delivery>, a: ChainId)
    ensures At(s + t, a) == At(s, a) + At(t, a)
  {
    if |s| > 0 {
      assert (s + t)[1..] == s[1..] + t;
      AtConcat(s[1..], t, a);
    } else {
      assert s + t == t;
    }
  }

  lemma {:induction false} AtOwn(t: seq<Delivery>, x: ChainId, a: ChainId)
    requires forall d | d in t :: d.chain == x
    ensures At(t, a) == if a == x then t else []
  {
    if |t| > 0 {
      assert t[0] in t;
      AtOwn(t[1..], x, a);
    }
  }

  /**
    Along a path without repetitions, where `f(x)` only holds deliveries made on
    `x`, the deliveries on `a` are exactly `f(a)` when `a` is on the path, and none
    otherwise.
   */
  lemma {:induction false} AtAlong(path: seq<ChainId>, f: ChainId -> seq<Delivery>, a: ChainId)
    requires forall i, j | 0 <= i < j < |path| :: path[i] != path[j]
    requires forall x, d | x in path && d in f(x) :: d.chain == x
    ensures At(Along(path, f), a) == if a in path then f(a) else []
  {
    if |path| > 0 {
      AtConcat(f(path[0]), Along(path[1..], f), a);
      AtOwn(f(path[0]), path[0], a);
      assert forall i, j | 0 <= i < j < |path[1..]| :: path[1..][i] != path[1..][j] by {
        forall i, j | 0 <= i < j < |path[1..]| ensures path[1..][i] != path[1..][j] {
          assert path[1..][i] == path[i + 1] && path[1..][j] == path[j + 1];
        }
      }
      AtAlong(path[1..], f, a);
      if a == path[0] {
        assert a !in path[1..] by {
          forall k | 0 <= k < |path[1..]| ensures path[1..][k] != a {
            assert path[1..][k] == path[k + 1];
          }
        }
      }
      assert a in path <==> a == path[0] || a in path[1..] by {
        assert path == [path[0]] + path[1..];
      }
    }
  }

  /** notifyEvent is the local deliveries of the chain and of each ancestor, nearest first. */
  lemma {:induction false} NotifyAlongPath(w: World, c: ChainId, e: ChainEvent)
    requires Valid(w) && c < |w.chains|
    ensures Notify(w, c, e) == Along(UpPath(w, c), (a: ChainId) => LocalEvent(w, a, e))
    decreases Depth(w, c)
  {
    if w.chains[c].parent.Some? {
      ParentCloserToRoot(w, c);
      NotifyAlongPath(w, w.chains[c].parent.value, e);
      assert UpPath(w, c)[1..] == UpPath(w, w.chains[c].parent.value);
    }
  }

  /**
    Every chain on the route from `c` to the root makes its local deliveries of
    the event exactly once; chains off the route receive nothing.
   */
  lemma NotifyReachesEachAncestorOnce(w: World, c: ChainId, e: ChainEvent, a: ChainId)
    requires Valid(w) && c < |w.chains|
    ensures At(Notify(w, c, e), a) == if a in UpPath(w, c) then LocalEvent(w, a, e) else []
  {
    NotifyAlongPath(w, c, e);
    UpPathDistinct(w, c);
    AtAlong(UpPath(w, c), (a: ChainId) => LocalEvent(w, a, e), a);
  }

  /**
    A listener is called for an event raised at `c` on chain `a` exactly when `a`
    is `c` or an ancestor and the listener is registered on `a` under the base
    kind or the event's kind.
   */
  lemma {:induction false} NotifyDelivers(w: World, c: ChainId, e: ChainEvent, a: ChainId, l: ListenerId)
    requires Valid(w) && c < |w.chains|
    ensures EventDelivery(l, a, e) in Notify(w, c, e) <==>
      a in UpPath(w, c) && exists key :: Matches(key, e) && l in Listeners(w.chains[a].eventListeners, key)
  {
    NotifyReachesEachAncestorOnce(w, c, e, a);
    var d := EventDelivery(l, a, e);
    if d in Notify(w, c, e) {
      var i :| 0 <= i < |Notify(w, c, e)| && Notify(w, c, e)[i] == d;
      AtHas(Notify(w, c, e), i);
    }
    if a in UpPath(w, c) {
      ReceiversMatch(w.chains[a].eventListeners, e, l);
      if l in Receivers(w.chains[a].eventListeners, e) {
        assert d in At(Notify(w, c, e), a);
      }
    }
  }

  lemma {:induction false} AtHas(t: seq<Delivery>, i: nat)
    requires i < |t|
    ensures t[i] in At(t, t[i].chain)
  {
    if i > 0 {
      AtHas(t[1..], i - 1);
    }
  }

  /** output reaches the output listeners of the chain and of each ancestor, nearest first. */
  lemma {:induction false} OutputAlongPath(w: World, c: ChainId, agent: AgentId, response: Value)
    requires Valid(w) && c < |w.chains|
    ensures OutputCascade(w, c, agent, response) == Along(UpPath(w, c), (a: ChainId) => LocalOutput(w, a, agent, response))
    decreases Depth(w, c)
  {
    if w.chains[c].parent.Some? {
      ParentCloserToRoot(w, c);
      OutputAlongPath(w, w.chains[c].parent.value, agent, response);
      assert UpPath(w, c)[1..] == UpPath(w, w.chains[c].parent.value);
    }
  }

  /** Each ancestor's output listeners are told of an output exactly once. */
  lemma OutputReachesEachAncestorOnce(w: World, c: ChainId, agent: AgentId, response: Value, a: ChainId)
    requires Valid(w) && c < |w.chains|
    ensures At(OutputCascade(w, c, agent, response), a) ==
      if a in UpPath(w, c) then LocalOutput(w, a, agent, response) else []
  {
    OutputAlongPath(w, c, agent, response);
    UpPathDistinct(w, c);
    AtAlong(UpPath(w, c), (a: ChainId) => LocalOutput(w, a, agent, response), a);
  }

  /** The listener callbacks one signal causes. */
  function Deliveries(w: World, s: Signal): seq<Delivery>
    requires Valid(w)
  {
    if s.origin >= |w.chains| then []
    else match s
      case Event(o, e) => Notify(w, o, e)
      case InputRequest(o, ps) => LocalInput(w, o, ps)
      case Output(o, agent, response) => OutputCascade(w, o, agent, response)
  }

  /**
    The listener callbacks a sequence of signals causes, in order: every
    callback of every signal, and nothing that no signal causes.
   */
  function Expand(w: World, signals: seq<Signal>): (t: seq<Delivery>)
    requires Valid(w)
    ensures forall i, d | 0 <= i < |signals| && d in Deliveries(w, signals[i]) :: d in t
    ensures forall d | d in t :: exists i | 0 <= i < |signals| :: d in Deliveries(w, signals[i])
  {
    if |signals| == 0 then []
    else
      var rest := Expand(w, signals[1..]);
      assert forall i | 1 <= i < |signals| :: signals[1..][i - 1] == signals[i];
      Deliveries(w, signals[0]) + rest
  }

  lemma {:induction false} ExpandConcat(w: World, s: seq<Signal>, t: seq<Signal>)
    requires Valid(w)
    ensures Expand(w, s + t) == Expand(w, s) + Expand(w, t)
  {
    if |s| > 0 {
      assert (s + t)[1..] == s[1..] + t;
      ExpandConcat(w, s[1..], t);
    } else {
      assert s + t == t;
    }
  }

  /** Deliveries depend only on the wiring: memory, status, message and wait set play no part. */
  lemma {:induction false} NotifySameWiring(w: World, w': World, c: ChainId, e: ChainEvent)
    requires Valid(w) && SameWiring(w, w') && c < |w.chains|
    ensures Valid(w') && Notify(w', c, e) == Notify(w, c, e)
    decreases Depth(w, c)
  {
    ValidSameParents(w, w');
    if w.chains[c].parent.Some? {
      ParentCloserToRoot(w, c);
      NotifySameWiring(w, w', w.chains[c].parent.value, e);
    }
  }
}

=== FILE: execution.dfy ===
/**
  The public entry points of a chain: `execute`, `executeForResult` and
  `resume`. Each runs the chain's lifecycle around the execute or resume hook;
  `resume` first checks that the chain is paused and that every awaited
  parameter has been supplied.
 */
module Execution {
  import opened Common
  import opened ChainArena
  import opened ChainMemory
  import opened EventBus
  import opened Lifecycle

  /** execute(key, variable): a run whose variables map holds the one entry `key -> variable`. */
  function Execute(w: World, c: ChainId, key: string, variable: Value, hook: Hook): (r: Effect)
    requires Valid(w) && c < |w.chains|
    ensures SameWiring(w, r.world)
    ensures r.world.chains[c] == RunOn(w.chains[c], Some(map[key := variable]), hook)
    ensures 2 <= |r.signals| && r.signals[0] == Event(c, OnStart) && r.signals[|r.signals| - 1] == Event(c, OnFinished)
  {
    RunInLifeCycle(w, c, Some(map[key := variable]), hook)
  }

  /** The hook of a run sees the variable it was started with. */
  lemma ExecuteHookSeesVariable(ch: Chain, key: string, variable: Value)
    ensures Get(Entered(ch, Some(map[key := variable])).memory, key) == variable
    ensures Entered(ch, Some(map[key := variable])).status == Start
  {
    assert key in map[key := variable];
  }

  /** The exception executeForResult throws, carrying the chain's message (possibly null). */
  datatype ChainException = ChainException(message: Option<string>)

  datatype ForResult = ForResult(effect: Effect, outcome: Result<Value, ChainException>)

  /**
    executeForResult(key, variable): execute, then fail with the chain's
    message unless the chain finished normally, else read the result key.
   */
  function ExecuteForResult(w: World, c: ChainId, key: string, variable: Value, resultKey: string, hook: Hook): (r: ForResult)
    requires Valid(w) && c < |w.chains|
    ensures SameWiring(w, r.effect.world)
    ensures r.effect.world.chains[c] == RunOn(w.chains[c], Some(map[key := variable]), hook)
    ensures r.outcome.Ok? <==> r.effect.world.chains[c].status == FinishedNormal
    ensures r.outcome.Ok? ==> r.outcome.value == Get(r.effect.world.chains[c].memory, resultKey)
    ensures r.outcome.Err? ==> r.outcome.error == ChainException(r.effect.world.chains[c].message)
  {
    var e := Execute(w, c, key, variable, hook);
    var ch := e.world.chains[c];
    if ch.status != FinishedNormal then ForResult(e, Err(ChainException(ch.message)))
    else ForResult(e, Ok(Get(ch.memory, resultKey)))
  }

  /** A hook that only stores values and produces outputs, and returns, ends the run normally. */
  lemma PlainRunSucceeds(w: World, c: ChainId, key: string, variable: Value, resultKey: string, hook: Hook)
    requires Valid(w) && c < |w.chains|
    requires hook.failure.None? && forall i | 0 <= i < |hook.calls| :: Plain(hook.calls[i])
    ensures ExecuteForResult(w, c, key, variable, resultKey, hook).outcome.Ok?
  {
    PlainCallsKeepStatus(Entered(w.chains[c], Some(map[key := variable])), hook.calls);
  }

  /**
    With a plain hook, executeForResult returns the last value stored under the
    result key, or the input variable itself when that is the key it was given
    and nothing overwrote it.
   */
  lemma ForResultReturnsLastStored(w: World, c: ChainId, key: string, variable: Value, resultKey: string, hook: Hook, i: nat)
    requires Valid(w) && c < |w.chains|
    requires hook.failure.None? && forall j | 0 <= j < |hook.calls| :: Plain(hook.calls[j])
    requires i < |hook.calls| && Stores(hook.calls[i], resultKey)
    requires forall j | i < j < |hook.calls| :: !Stores(hook.calls[j], resultKey)
    ensures ExecuteForResult(w, c, key, variable, resultKey, hook).outcome == Ok(hook.calls[i].value)
  {
    var ch := Entered(w.chains[c], Some(map[key := variable]));
    PlainCallsKeepStatus(ch, hook.calls);
    MemoryOfLastStore(ch, hook.calls, resultKey);
  }

  lemma ForResultEchoesInput(w: World, c: ChainId, key: string, variable: Value, hook: Hook)
    requires Valid(w) && c < |w.chains|
    requires hook.failure.None? && forall j | 0 <= j < |hook.calls| :: Plain(hook.calls[j])
    requires forall j | 0 <= j < |hook.calls| :: !Stores(hook.calls[j], key)
    ensures ExecuteForResult(w, c, key, variable, key, hook).outcome == Ok(variable)
  {
    var ch := Entered(w.chains[c], Some(map[key := variable]));
    ExecuteHookSeesVariable(w.chains[c], key, variable);
    PlainCallsKeepStatus(ch, hook.calls);
    MemoryOfLastStore(ch, hook.calls, key);
  }

  /**
    A thrown failure makes executeForResult fail, and the exception carries the
    message of the last stop call, or the message from before the run: the
    failure's own text never becomes the message.
   */
  lemma ForResultFailureKeepsMessage(w: World, c: ChainId, key: string, variable: Value, resultKey: string, hook: Hook)
    requires Valid(w) && c < |w.chains|
    requires hook.failure.Some?
    ensures ExecuteForResult(w, c, key, variable, resultKey, hook).outcome.Err?
    ensures (forall i | 0 <= i < |hook.calls| :: !IsStop(hook.calls[i])) ==>
      ExecuteForResult(w, c, key, variable, resultKey, hook).outcome == Err(ChainException(w.chains[c].message))
  {
    MessageOfLastStop(Entered(w.chains[c], Some(map[key := variable])), hook.calls);
  }

  /**
    A hook whose last call is stopError makes executeForResult throw with that
    stop's message, a null message included.
   */
  lemma ForResultAfterStopError(w: World, c: ChainId, key: string, variable: Value, resultKey: string,
                                calls: seq<HookCall>, m: Option<string>)
    requires Valid(w) && c < |w.chains|
    ensures ExecuteForResult(w, c, key, variable, resultKey, Hook(calls + [StopErrorCall(m)], None)).outcome
         == Err(ChainException(m))
  {
    var ch := Entered(w.chains[c], Some(map[key := variable]));
    AfterCallsConcat(ch, calls, [StopErrorCall(m)]);
  }

  /** A hook whose last call pauses for input makes executeForResult fail, the chain waiting for that input. */
  lemma ForResultPausedFails(w: World, c: ChainId, key: string, variable: Value, resultKey: string,
                             calls: seq<HookCall>, ps: seq<Parameter>)
    requires Valid(w) && c < |w.chains|
    ensures var r := ExecuteForResult(w, c, key, variable, resultKey, Hook(calls + [WaitInputCall(ps)], None));
      && r.outcome.Err?
      && r.effect.world.chains[c].status == PauseForInput
      && r.effect.world.chains[c].waitInputParameters == w.chains[c].waitInputParameters + Awaited(calls) + ps
  {
    var ch := Entered(w.chains[c], Some(map[key := variable]));
    AfterCallsConcat(ch, calls, [WaitInputCall(ps)]);
    WaitSetGrows(ch, calls);
  }

  /** A chain can be resumed only while it is paused. */
  predicate Resumable(s: ChainStatus)
  {
    s == PauseForInput || s == PauseForWakeUp
  }

  /** Whether the variables hold a non-null value for every parameter, checked in order. */
  function AllSupplied(ps: seq<Parameter>, vars: Memory): (b: bool)
    ensures b <==> forall i | 0 <= i < |ps| :: Get(vars, ps[i].name) != Null
    decreases |ps|
  {
    if |ps| == 0 then true
    else if Get(vars, ps[0].name) == Null then false
    else
      var b := AllSupplied(ps[1..], vars);
      assert forall i | 1 <= i < |ps| :: ps[1..][i - 1] == ps[i];
      b
  }

  /** Whether resume accepted the variables, and what it did. */
  datatype Resumption = Resumption(accepted: bool, effect: Effect)

  /**
    resume(variables): refuse, changing nothing, unless the chain is paused, the
    variables are present and non-empty and every awaited parameter has a
    non-null value; otherwise clear the wait set and run the resume hook.
   */
  function Resume(w: World, c: ChainId, vars: Option<Memory>, hook: Hook): (r: Resumption)
    requires Valid(w) && c < |w.chains|
    ensures r.accepted <==>
      && Resumable(w.chains[c].status)
      && vars.Some? && |vars.value| > 0
      && forall i | 0 <= i < |w.chains[c].waitInputParameters| :: Get(vars.value, w.chains[c].waitInputParameters[i].name) != Null
    ensures !r.accepted ==> r.effect == Effect(w, [])
    ensures r.accepted ==> SameWiring(w, r.effect.world)
    ensures r.accepted ==> r.effect.world.chains[c] == RunOn(w.chains[c].(waitInputParameters := []), vars, hook)
    ensures r.accepted ==> r.effect.world.chains[c].waitInputParameters == Awaited(hook.calls)
    ensures r.accepted ==> RunTrace(c, r.effect.signals, hook.failure, Awaited(hook.calls))
  {
    var ch := w.chains[c];
    if !Resumable(ch.status) then Resumption(false, Effect(w, []))
    else if vars.None? || |vars.value| == 0 then Resumption(false, Effect(w, []))
    else if !AllSupplied(ch.waitInputParameters, vars.value) then Resumption(false, Effect(w, []))
    else Resumption(true, ResumeRun(w, c, vars, hook))
  }

  /**
    The accepted resume: clear the wait set, then run the resume hook in the
    lifecycle. The run is bracketed by the start and finish events, reports a
    thrown failure, and calls the input listeners exactly when the resume hook
    paused the chain for input again.
   */
  function ResumeRun(w: World, c: ChainId, vars: Option<Memory>, hook: Hook): (r: Effect)
    requires Valid(w) && c < |w.chains|
    ensures SameWiring(w, r.world)
    ensures r.world.chains[c] == RunOn(w.chains[c].(waitInputParameters := []), vars, hook)
    ensures r.world.chains[c].waitInputParameters == Awaited(hook.calls)
    ensures RunTrace(c, r.signals, hook.failure, Awaited(hook.calls))
    ensures (forall i | 0 <= i < |hook.calls| :: !hook.calls[i].WaitInputCall?) ==>
      forall sig | sig in r.signals :: !sig.InputRequest?
  {
    var w1 := WithChain(w, c, w.chains[c].(waitInputParameters := []));
    ValidSameWiring(w, w1);
    var r := RunInLifeCycle(w1, c, vars, hook);
    WaitSetGrows(Entered(w.chains[c].(waitInputParameters := []), vars), hook.calls);
    r
  }

  /**
    Pausing a chain that awaited nothing and then resuming it succeeds exactly
    when the variables are non-empty and name every awaited parameter.
   */
  lemma {:induction false} WaitThenResume(w: World, c: ChainId, ps: seq<Parameter>, vars: Memory, hook: Hook)
    requires Valid(w) && c < |w.chains| && w.chains[c].waitInputParameters == []
    ensures var w1 := WaitInput(w, c, ps).world;
      Valid(w1) &&
      (Resume(w1, c, Some(vars), hook).accepted <==>
        |vars| > 0 && forall i | 0 <= i < |ps| :: Get(vars, ps[i].name) != Null)
  {
    var w1 := WaitInput(w, c, ps).world;
    ValidSameWiring(w, w1);
    assert w1.chains[c].waitInputParameters == ps;
    assert Resumable(w1.chains[c].status);
    var r := Resume(w1, c, Some(vars), hook);
  }

  /**
    Delivered to listeners, a signal sequence that opens with a start event and
    closes with a finish event, as every run's does, begins with the start event
    at the chain and each ancestor and ends with the finish event likewise.
   */
  lemma ExpandBracketed(w: World, c: ChainId, s: seq<Signal>)
    requires Valid(w) && c < |w.chains|
    requires 2 <= |s| && s[0] == Event(c, OnStart) && s[|s| - 1] == Event(c, OnFinished)
    ensures Expand(w, s) == Notify(w, c, OnStart) + Expand(w, s[1..|s| - 1]) + Notify(w, c, OnFinished)
  {
    assert s == [s[0]] + s[1..|s| - 1] + [s[|s| - 1]];
    ExpandConcat(w, [s[0]] + s[1..|s| - 1], [s[|s| - 1]]);
    ExpandConcat(w, [s[0]], s[1..|s| - 1]);
  }
}

=== FILE: lifecycle.dfy ===
/**
  The chain lifecycle: status changes, pausing for input, cascading stops, and
  the runner that brackets the execute and resume hooks with start, error and
  finish events and then normalises the status.

  Every operation returns the new world and the signals it raised, in order.
  The abstract `executeInternal` / `resumeInternal` hook is a `Hook`: the calls
  it makes on the running chain, then whether it returned or threw.
 */
module Lifecycle {
  import opened Common
  import opened ChainArena
  import opened ChainMemory
  import opened EventBus

  datatype Effect = Effect(world: World, signals: seq<Signal>)

  /** setStatus: a status change is announced once, with the new and the previous status. */
  function SetStatus(w: World, c: ChainId, s: ChainStatus): (r: Effect)
    requires c < |w.chains|
    ensures |r.world.chains| == |w.chains|
    ensures r.world.chains[c] == w.chains[c].(status := s)
    ensures forall i | 0 <= i < |w.chains| && i != c :: r.world.chains[i] == w.chains[i]
    ensures w.chains[c].status == s ==> r.signals == []
    ensures w.chains[c].status != s ==> r.signals == [Event(c, OnStatusChange(s, w.chains[c].status))]
  {
    var before := w.chains[c].status;
    var w' := WithChain(w, c, w.chains[c].(status := s));
    if before != s then Effect(w', [Event(c, OnStatusChange(s, before))]) else Effect(w', [])
  }

  /** Setting a status a second time changes nothing and announces nothing. */
  lemma SetStatusIdempotent(w: World, c: ChainId, s: ChainStatus)
    requires c < |w.chains|
    ensures SetStatus(SetStatus(w, c, s).world, c, s) == Effect(SetStatus(w, c, s).world, [])
  {
    var w1 := SetStatus(w, c, s).world;
    assert w1.chains[c := w1.chains[c].(status := s)] == w1.chains;
  }

  /** A run of setStatus calls, one after the other. */
  function SetStatuses(w: World, c: ChainId, ss: seq<ChainStatus>): (r: Effect)
    requires c < |w.chains|
    ensures |r.world.chains| == |w.chains|
    decreases |ss|
  {
    if |ss| == 0 then Effect(w, [])
    else
      var e1 := SetStatus(w, c, ss[0]);
      var e2 := SetStatuses(e1.world, c, ss[1..]);
      Effect(e2.world, e1.signals + e2.signals)
  }

  /** How many times the status actually changes when `ss` is applied from `s0`. */
  function Changes(s0: ChainStatus, ss: seq<ChainStatus>): nat
    decreases |ss|
  {
    if |ss| == 0 then 0 else (if ss[0] != s0 then 1 else 0) + Changes(ss[0], ss[1..])
  }

  /** Over any run of setStatus calls, one status-change event is raised per actual change. */
  lemma {:induction false} StatusChangeOncePerChange(w: World, c: ChainId, ss: seq<ChainStatus>)
    requires c < |w.chains|
    ensures |SetStatuses(w, c, ss).signals| == Changes(w.chains[c].status, ss)
    ensures forall sig | sig in SetStatuses(w, c, ss).signals ::
      sig.Event? && sig.origin == c && sig.event.OnStatusChange? && sig.event.status != sig.event.before
    decreases |ss|
  {
    if |ss| > 0 {
      StatusChangeOncePerChange(SetStatus(w, c, ss[0]).world, c, ss[1..]);
    }
  }

  /** waitInput: pause for input and add the parameters after those already awaited. */
  function WaitInput(w: World, c: ChainId, ps: seq<Parameter>): (r: Effect)
    requires c < |w.chains|
    ensures |r.world.chains| == |w.chains|
    ensures r.world.chains[c].status == PauseForInput
    ensures r.world.chains[c].waitInputParameters == w.chains[c].waitInputParameters + ps
    ensures r.world.chains[c] ==
      w.chains[c].(status := PauseForInput, waitInputParameters := w.chains[c].waitInputParameters + ps)
    ensures forall i | 0 <= i < |w.chains| && i != c :: r.world.chains[i] == w.chains[i]
    ensures r.signals == SetStatus(w, c, PauseForInput).signals
  {
    var e := SetStatus(w, c, PauseForInput);
    var ch := e.world.chains[c];
    Effect(WithChain(e.world, c, ch.(waitInputParameters := ch.waitInputParameters + ps)), e.signals)
  }

  /**
    The code lets a chain be paused for input with nothing new awaited: waiting
    on an empty parameter list pauses any chain, announces the change once, and
    leaves the wait set as it was, so an empty wait set stays empty.
   */
  lemma WaitForNothingPauses(w: World, c: ChainId)
    requires c < |w.chains|
    ensures WaitInput(w, c, []).world.chains[c].status == PauseForInput
    ensures WaitInput(w, c, []).world.chains[c].waitInputParameters == w.chains[c].waitInputParameters
    ensures WaitInput(w, c, []).signals == StatusChangeAt(w, c, PauseForInput)
  {
    assert w.chains[c].waitInputParameters + [] == w.chains[c].waitInputParameters;
  }

  /**
    stopNormal / stopError: set the message and the terminal status on the chain,
    then the same stop on the parent, up to the root.
   */
  function Stop(w: World, c: ChainId, m: Option<string>, s: ChainStatus): (r: Effect)
    requires Valid(w) && c < |w.chains|
    ensures SameWiring(w, r.world)
    decreases Depth(w, c)
  {
    var e1 := StopHere(w, c, m, s);
    match w.chains[c].parent
    case None => e1
    case Some(p) =>
      ParentCloserToRoot(w, c);
      ValidSameParents(w, e1.world);
      var e2 := Stop(e1.world, p, m, s);
      Effect(e2.world, e1.signals + e2.signals)
  }

  /** One level of a stop: the message, then the terminal status, on chain `c` alone. */
  function StopHere(w: World, c: ChainId, m: Option<string>, s: ChainStatus): (r: Effect)
    requires c < |w.chains|
    ensures SameWiring(w, r.world)
    ensures r.world.chains[c] == w.chains[c].(status := s, message := m)
    ensures forall i | 0 <= i < |w.chains| && i != c :: r.world.chains[i] == w.chains[i]
    ensures r.signals == StatusChangeAt(w, c, s)
  {
    SetStatus(WithChain(w, c, w.chains[c].(message := m)), c, s)
  }

  /** A stop gives the chain and each ancestor the terminal status and the message. */
  lemma {:induction false} StopReachesEachAncestor(w: World, c: ChainId, m: Option<string>, s: ChainStatus)
    requires Valid(w) && c < |w.chains|
    ensures forall a | a in UpPath(w, c) ::
      Stop(w, c, m, s).world.chains[a] == w.chains[a].(status := s, message := m)
    decreases Depth(w, c)
  {
    var e1 := StopHere(w, c, m, s);
    if w.chains[c].parent.Some? {
      var p := w.chains[c].parent.value;
      ParentCloserToRoot(w, c);
      ValidSameParents(w, e1.world);
      UpPathSameParents(w, e1.world, p);
      NotOnParentPath(w, c);
      StopReachesEachAncestor(e1.world, p, m, s);
      StopTouchesOnlyThePath(e1.world, p, m, s);
      var w2 := Stop(e1.world, p, m, s).world;
      assert Stop(w, c, m, s).world == w2;
      forall a | a in UpPath(w, c)
        ensures w2.chains[a] == w.chains[a].(status := s, message := m)
      {
        if a != c {
          assert a in UpPath(w, p);
        }
      }
    }
  }

  /** A stop leaves every chain off the upward path exactly as it was. */
  lemma {:induction false} StopTouchesOnlyThePath(w: World, c: ChainId, m: Option<string>, s: ChainStatus)
    requires Valid(w) && c < |w.chains|
    ensures forall a | 0 <= a < |w.chains| && a !in UpPath(w, c) ::
      Stop(w, c, m, s).world.chains[a] == w.chains[a]
    decreases Depth(w, c)
  {
    var e1 := StopHere(w, c, m, s);
    if w.chains[c].parent.Some? {
      var p := w.chains[c].parent.value;
      ParentCloserToRoot(w, c);
      ValidSameParents(w, e1.world);
      UpPathSameParents(w, e1.world, p);
      NotOnParentPath(w, c);
      StopTouchesOnlyThePath(e1.world, p, m, s);
    }
  }

  /** The status-change signal `Stop` raises on one chain, if its status differs. */
  function StatusChangeAt(w: World, a: ChainId, s: ChainStatus): seq<Signal>
  {
    if a < |w.chains| && w.chains[a].status != s then [Event(a, OnStatusChange(s, w.chains[a].status))] else []
  }

  /**
    A stop raises, for the chain and then for each ancestor in turn, one status
    change exactly when that chain was not already in the terminal status.
   */
  lemma {:induction false} StopSignals(w: World, c: ChainId, m: Option<string>, s: ChainStatus)
    requires Valid(w) && c < |w.chains|
    ensures Stop(w, c, m, s).signals == Along(UpPath(w, c), (a: ChainId) => StatusChangeAt(w, a, s))
    decreases Depth(w, c)
  {
    var e1 := StopHere(w, c, m, s);
    if w.chains[c].parent.Some? {
      var p := w.chains[c].parent.value;
      ParentCloserToRoot(w, c);
      UpPathSameParents(w, e1.world, p);
      ValidSameParents(w, e1.world);
      NotOnParentPath(w, c);
      StopSignals(e1.world, p, m, s);
      var path := UpPath(w, p);
      var f := (a: ChainId) => StatusChangeAt(w, a, s);
      var g := (a: ChainId) => StatusChangeAt(e1.world, a, s);
      forall i | 0 <= i < |path| ensures g(path[i]) == f(path[i]) {
        assert path[i] != c;
      }
      AlongCongruent(path, g, f);
      assert Stop(w, c, m, s).signals == f(c) + Along(path, g);
      assert Along(UpPath(w, c), f) == f(c) + Along(path, f);
    }
  }

  /** Concatenating only status changes yields only status changes. */
  lemma {:induction false} StatusChangesAlong(path: seq<ChainId>, f: ChainId -> seq<Signal>)
    requires forall a: ChainId, sig | sig in f(a) :: sig.Event? && sig.event.OnStatusChange?
    ensures forall sig | sig in Along(path, f) :: sig.Event? && sig.event.OnStatusChange?
  {
    if |path| > 0 {
      StatusChangesAlong(path[1..], f);
    }
  }

  /** Every signal a stop raises is a status change. */
  lemma StopSignalsAreStatusChanges(w: World, c: ChainId, m: Option<string>, s: ChainStatus)
    requires Valid(w) && c < |w.chains|
    ensures forall sig | sig in Stop(w, c, m, s).signals :: sig.Event? && sig.event.OnStatusChange?
  {
    StopSignals(w, c, m, s);
    StatusChangesAlong(UpPath(w, c), (a: ChainId) => StatusChangeAt(w, a, s));
  }

  /** stopNormal: the chain and every ancestor end normally with the given message, a null one included. */
  function StopNormal(w: World, c: ChainId, m: Option<string>): (r: Effect)
    requires Valid(w) && c < |w.chains|
    ensures SameWiring(w, r.world)
    ensures forall a | a in UpPath(w, c) ::
      r.world.chains[a] == w.chains[a].(status := FinishedNormal, message := m)
    ensures forall a | 0 <= a < |w.chains| && a !in UpPath(w, c) :: r.world.chains[a] == w.chains[a]
    ensures r.signals == Along(UpPath(w, c), (a: ChainId) => StatusChangeAt(w, a, FinishedNormal))
  {
    StopReachesEachAncestor(w, c, m, FinishedNormal);
    StopTouchesOnlyThePath(w, c, m, FinishedNormal);
    StopSignals(w, c, m, FinishedNormal);
    Stop(w, c, m, FinishedNormal)
  }

  /** stopError: the chain and every ancestor end abnormally with the given message, a null one included. */
  function StopError(w: World, c: ChainId, m: Option<string>): (r: Effect)
    requires Valid(w) && c < |w.chains|
    ensures SameWiring(w, r.world)
    ensures forall a | a in UpPath(w, c) ::
      r.world.chains[a] == w.chains[a].(status := FinishedAbnormal, message := m)
    ensures forall a | 0 <= a < |w.chains| && a !in UpPath(w, c) :: r.world.chains[a] == w.chains[a]
    ensures r.signals == Along(UpPath(w, c), (a: ChainId) => StatusChangeAt(w, a, FinishedAbnormal))
  {
    StopReachesEachAncestor(w, c, m, FinishedAbnormal);
    StopTouchesOnlyThePath(w, c, m, FinishedAbnormal);
    StopSignals(w, c, m, FinishedAbnormal);
    Stop(w, c, m, FinishedAbnormal)
  }

  /** A call the execute or resume hook makes on its chain. */
  datatype HookCall =
    | WaitInputCall(parameters: seq<Parameter>)
    | StopNormalCall(message: Option<string>)
    | StopErrorCall(message: Option<string>)
    | OutputCall(agent: AgentId, response: Value)
    | PutCall(key: string, value: Value)
    | SetStatusCall(status: ChainStatus)

  /** What a hook does: its calls, in order, then either a return or a thrown failure. */
  datatype Hook = Hook(calls: seq<HookCall>, failure: Option<string>)

  /** The signals a hook can raise: status changes and outputs, never lifecycle brackets or input requests. */
  predicate HookSignal(sig: Signal)
  {
    sig.Output? || (sig.Event? && sig.event.OnStatusChange?)
  }

  /** What one hook call does to the running chain's own record. */
  function AfterCall(ch: Chain, call: HookCall): Chain
  {
    match call
    case WaitInputCall(ps) => ch.(status := PauseForInput, waitInputParameters := ch.waitInputParameters + ps)
    case StopNormalCall(m) => ch.(status := FinishedNormal, message := m)
    case StopErrorCall(m) => ch.(status := FinishedAbnormal, message := m)
    case OutputCall(_, _) => ch
    case PutCall(k, v) => ch.(memory := ch.memory[k := v])
    case SetStatusCall(st) => ch.(status := st)
  }

  /** What a run of hook calls does to the running chain's own record. */
  function AfterCalls(ch: Chain, calls: seq<HookCall>): Chain
    decreases |calls|
  {
    if |calls| == 0 then ch else AfterCalls(AfterCall(ch, calls[0]), calls[1..])
  }

  predicate IsStop(call: HookCall)
  {
    call.StopNormalCall? || call.StopErrorCall?
  }

  /**
    The message after a run of hook calls is the one given to the last stop
    call, and is untouched when there is none.
   */
  lemma {:induction false} MessageOfLastStop(ch: Chain, calls: seq<HookCall>)
    ensures (forall i | 0 <= i < |calls| :: !IsStop(calls[i])) ==> AfterCalls(ch, calls).message == ch.message
    ensures forall i | 0 <= i < |calls| && IsStop(calls[i]) && (forall j | i < j < |calls| :: !IsStop(calls[j])) ::
      AfterCalls(ch, calls).message == calls[i].message
    decreases |calls|
  {
    if |calls| > 0 {
      var rest := calls[1..];
      assert forall j | 0 <= j < |rest| :: rest[j] == calls[j + 1];
      MessageOfLastStop(AfterCall(ch, calls[0]), rest);
      forall i | 0 <= i < |calls| && IsStop(calls[i]) && (forall j | i < j < |calls| :: !IsStop(calls[j]))
        ensures AfterCalls(ch, calls).message == calls[i].message
      {
        if i > 0 {
          assert rest[i - 1] == calls[i];
        } else {
          assert forall j | 0 <= j < |rest| :: !IsStop(rest[j]);
        }
      }
    }
  }

  /** The parameters the calls wait for, in call order. */
  function Awaited(calls: seq<HookCall>): seq<Parameter>
    decreases |calls|
  {
    if |calls| == 0 then []
    else (if calls[0].WaitInputCall? then calls[0].parameters else []) + Awaited(calls[1..])
  }

  /** One call appends the parameters of a wait, and nothing otherwise. */
  lemma AfterCallWaitSet(ch: Chain, call: HookCall)
    ensures AfterCall(ch, call).waitInputParameters ==
      ch.waitInputParameters + (if call.WaitInputCall? then call.parameters else [])
  {
  }

  /** Calls without a wait ask for nothing. */
  lemma {:induction false} AwaitedWithoutWait(calls: seq<HookCall>)
    requires forall i | 0 <= i < |calls| :: !calls[i].WaitInputCall?
    ensures Awaited(calls) == []
    decreases |calls|
  {
    if |calls| > 0 {
      var rest := calls[1..];
      assert forall j | 0 <= j < |rest| :: rest[j] == calls[j + 1];
      AwaitedWithoutWait(rest);
    }
  }

  /**
    Waiting only ever appends: after the calls the chain waits for what it
    waited for before and then everything the calls asked for; without a
    wait call the wait set is as it was.
   */
  lemma {:induction false} WaitSetGrows(ch: Chain, calls: seq<HookCall>)
    ensures AfterCalls(ch, calls).waitInputParameters == ch.waitInputParameters + Awaited(calls)
    ensures (forall i | 0 <= i < |calls| :: !calls[i].WaitInputCall?) ==>
      AfterCalls(ch, calls).waitInputParameters == ch.waitInputParameters
    decreases |calls|
  {
    if |calls| > 0 {
      var rest := calls[1..];
      var own := if calls[0].WaitInputCall? then calls[0].parameters else [];
      WaitSetGrows(AfterCall(ch, calls[0]), rest);
      AfterCallWaitSet(ch, calls[0]);
      assert Awaited(calls) == own + Awaited(rest);
      assert (ch.waitInputParameters + own) + Awaited(rest) == ch.waitInputParameters + (own + Awaited(rest));
    }
    if forall i | 0 <= i < |calls| :: !calls[i].WaitInputCall? {
      AwaitedWithoutWait(calls);
      assert ch.waitInputParameters + [] == ch.waitInputParameters;
    }
  }

  predicate Stores(call: HookCall, k: string)
  {
    call.PutCall? && call.key == k
  }

  /** One call changes a key's value only by storing under that key. */
  lemma AfterCallRead(ch: Chain, call: HookCall, k: string)
    ensures Get(AfterCall(ch, call).memory, k) == if Stores(call, k) then call.value else Get(ch.memory, k)
  {
  }

  /**
    A key read after a run of hook calls holds the value of the last call that
    stored it, and what it held before when no call stored it.
   */
  lemma {:induction false} MemoryOfLastStore(ch: Chain, calls: seq<HookCall>, k: string)
    ensures (forall i | 0 <= i < |calls| :: !Stores(calls[i], k)) ==>
      Get(AfterCalls(ch, calls).memory, k) == Get(ch.memory, k)
    ensures forall i | 0 <= i < |calls| && Stores(calls[i], k) && (forall j | i < j < |calls| :: !Stores(calls[j], k)) ::
      Get(AfterCalls(ch, calls).memory, k) == calls[i].value
    decreases |calls|
  {
    if |calls| > 0 {
      var rest := calls[1..];
      assert forall j | 0 <= j < |rest| :: rest[j] == calls[j + 1];
      MemoryOfLastStore(AfterCall(ch, calls[0]), rest, k);
      AfterCallRead(ch, calls[0], k);
      forall i | 0 <= i < |calls| && Stores(calls[i], k) && (forall j | i < j < |calls| :: !Stores(calls[j], k))
        ensures Get(AfterCalls(ch, calls).memory, k) == calls[i].value
      {
        if i > 0 {
          assert rest[i - 1] == calls[i];
        } else {
          assert forall j | 0 <= j < |rest| :: !Stores(rest[j], k);
        }
      }
    }
  }

  /** Running two batches of calls is running the first and then the second. */
  lemma {:induction false} AfterCallsConcat(ch: Chain, xs: seq<HookCall>, ys: seq<HookCall>)
    ensures AfterCalls(ch, xs + ys) == AfterCalls(AfterCalls(ch, xs), ys)
    decreases |xs|
  {
    if |xs| > 0 {
      assert (xs + ys)[1..] == xs[1..] + ys;
      AfterCallsConcat(AfterCall(ch, xs[0]), xs[1..], ys);
    } else {
      assert xs + ys == ys;
    }
  }

  /** Storing values and producing outputs leave the status, message and wait set alone. */
  predicate Plain(call: HookCall)
  {
    call.PutCall? || call.OutputCall?
  }

  lemma {:induction false} PlainCallsKeepStatus(ch: Chain, calls: seq<HookCall>)
    requires forall i | 0 <= i < |calls| :: Plain(calls[i])
    ensures AfterCalls(ch, calls).status == ch.status
    ensures AfterCalls(ch, calls).message == ch.message
    ensures AfterCalls(ch, calls).waitInputParameters == ch.waitInputParameters
    decreases |calls|
  {
    if |calls| > 0 {
      var rest := calls[1..];
      assert forall j | 0 <= j < |rest| :: rest[j] == calls[j + 1];
      PlainCallsKeepStatus(AfterCall(ch, calls[0]), rest);
    }
  }

  /**
    One hook call on the running chain. A stop also reaches the ancestors;
    every other call touches the running chain alone.
   */
  function ApplyCall(w: World, c: ChainId, call: HookCall): (r: Effect)
    requires Valid(w) && c < |w.chains|
    ensures SameWiring(w, r.world)
    ensures r.world.chains[c] == AfterCall(w.chains[c], call)
    ensures !IsStop(call) ==> forall i | 0 <= i < |w.chains| && i != c :: r.world.chains[i] == w.chains[i]
    ensures forall sig | sig in r.signals :: HookSignal(sig)
    ensures call.OutputCall? ==> r.signals == [Output(c, call.agent, call.response)]
    ensures call.PutCall? ==> r.signals == []
    ensures call.WaitInputCall? ==> r.signals == StatusChangeAt(w, c, PauseForInput)
    ensures call.SetStatusCall? ==> r.signals == StatusChangeAt(w, c, call.status)
    ensures call.StopNormalCall? ==> r.signals == Along(UpPath(w, c), (a: ChainId) => StatusChangeAt(w, a, FinishedNormal))
    ensures call.StopErrorCall? ==> r.signals == Along(UpPath(w, c), (a: ChainId) => StatusChangeAt(w, a, FinishedAbnormal))
    ensures !call.OutputCall? ==> forall sig | sig in r.signals :: sig.Event?
  {
    match call
    case WaitInputCall(ps) => WaitInput(w, c, ps)
    case StopNormalCall(m) =>
      var r := StopNormal(w, c, m);
      assert c in UpPath(w, c);
      StopSignalsAreStatusChanges(w, c, m, FinishedNormal);
      r
    case StopErrorCall(m) =>
      var r := StopError(w, c, m);
      assert c in UpPath(w, c);
      StopSignalsAreStatusChanges(w, c, m, FinishedAbnormal);
      r
    case OutputCall(agent, response) => Effect(w, [Output(c, agent, response)])
    case PutCall(k, v) => Effect(WithChain(w, c, w.chains[c].(memory := w.chains[c].memory[k := v])), [])
    case SetStatusCall(st) => SetStatus(w, c, st)
  }

  /** The output signals among `signals`, in order. */
  function OutputsIn(signals: seq<Signal>): seq<Signal>
  {
    if |signals| == 0 then []
    else (if signals[0].Output? then [signals[0]] else []) + OutputsIn(signals[1..])
  }

  lemma {:induction false} OutputsInConcat(a: seq<Signal>, b: seq<Signal>)
    ensures OutputsIn(a + b) == OutputsIn(a) + OutputsIn(b)
    decreases |a|
  {
    if |a| > 0 {
      assert (a + b)[1..] == a[1..] + b;
      OutputsInConcat(a[1..], b);
    } else {
      assert a + b == b;
    }
  }

  lemma {:induction false} NoOutputsIn(a: seq<Signal>)
    requires forall sig | sig in a :: !sig.Output?
    ensures OutputsIn(a) == []
    decreases |a|
  {
    if |a| > 0 {
      assert a[0] in a && forall sig | sig in a[1..] :: sig in a;
      NoOutputsIn(a[1..]);
    }
  }

  /** The outputs a run of hook calls produces on chain `c`: one per output call, in call order. */
  function HookOutputs(c: ChainId, calls: seq<HookCall>): seq<Signal>
  {
    if |calls| == 0 then []
    else (if calls[0].OutputCall? then [Output(c, calls[0].agent, calls[0].response)] else [])
         + HookOutputs(c, calls[1..])
  }

  /**
    The hook's calls in order; the running chain ends as the record-level model
    says, and the outputs raised are exactly the hook's output calls, in order.
   */
  function ApplyCalls(w: World, c: ChainId, calls: seq<HookCall>): (r: Effect)
    requires Valid(w) && c < |w.chains|
    ensures SameWiring(w, r.world)
    ensures r.world.chains[c] == AfterCalls(w.chains[c], calls)
    ensures forall sig | sig in r.signals :: HookSignal(sig)
    ensures OutputsIn(r.signals) == HookOutputs(c, calls)
    decreases |calls|
  {
    if |calls| == 0 then Effect(w, [])
    else
      var e1 := ApplyCall(w, c, calls[0]);
      ValidSameWiring(w, e1.world);
      var e2 := ApplyCalls(e1.world, c, calls[1..]);
      SameWiringTrans(w, e1.world, e2.world);
      OutputsInConcat(e1.signals, e2.signals);
      if calls[0].OutputCall? then
        assert OutputsIn(e1.signals) == [e1.signals[0]];
        Effect(e2.world, e1.signals + e2.signals)
      else
        NoOutputsIn(e1.signals);
        Effect(e2.world, e1.signals + e2.signals)
  }

  /** The running chain as the hook first sees it: variables merged, status `Start`. */
  function Entered(ch: Chain, vars: Option<Memory>): Chain
  {
    ch.(memory := if vars.Some? then PutAll(ch.memory, vars.value) else ch.memory, status := Start)
  }

  /** The lifecycle's first steps: merge the variables, announce the start, enter `Start`. */
  function Enter(w: World, c: ChainId, vars: Option<Memory>): (r: Effect)
    requires c < |w.chains|
    ensures SameWiring(w, r.world)
    ensures forall i | 0 <= i < |w.chains| && i != c :: r.world.chains[i] == w.chains[i]
    ensures r.world.chains[c] == Entered(w.chains[c], vars)
    ensures |r.signals| == if w.chains[c].status == Start then 1 else 2
    ensures r.signals[0] == Event(c, OnStart)
    ensures forall i | 1 <= i < |r.signals| :: r.signals[i] == Event(c, OnStatusChange(Start, w.chains[c].status))
  {
    var ch := w.chains[c];
    var w1 := if vars.Some? then WithChain(w, c, ch.(memory := PutAll(ch.memory, vars.value))) else w;
    var e := SetStatus(w1, c, Start);
    Effect(e.world, [Event(c, OnStart)] + e.signals)
  }

  /** A signal that brackets a run: the start or the finish announcement. */
  predicate BracketSignal(sig: Signal)
  {
    sig.Event? && (sig.event.OnStart? || sig.event.OnFinished?)
  }

  /**
    The status a run settles on: a thrown failure ends abnormally, `Start`
    becomes `FinishedNormal`, `Error` becomes `FinishedAbnormal`, and any
    status the hook chose itself stays.
   */
  function Settle(s: ChainStatus, failure: Option<string>): (r: ChainStatus)
    ensures r != Start && r != Error
    ensures failure.Some? ==> r == FinishedAbnormal
    ensures failure.None? && s != Start && s != Error ==> r == s
  {
    if failure.Some? || s == Error then FinishedAbnormal
    else if s == Start then FinishedNormal
    else s
  }

  /** The catch block: a thrown failure sets `Error` and is announced; a return does nothing. */
  function Catch(w: World, c: ChainId, failure: Option<string>): (r: Effect)
    requires c < |w.chains|
    ensures SameWiring(w, r.world)
    ensures forall i | 0 <= i < |w.chains| && i != c :: r.world.chains[i] == w.chains[i]
    ensures failure.None? ==> r == Effect(w, [])
    ensures failure.Some? ==> r.world.chains[c] == w.chains[c].(status := Error)
    ensures failure.Some? ==> 0 < |r.signals| && r.signals[|r.signals| - 1] == Event(c, OnError(failure.value))
    ensures failure.Some? ==> r.signals == StatusChangeAt(w, c, Error) + [Event(c, OnError(failure.value))]
    ensures forall sig | sig in r.signals :: sig.Event? && !BracketSignal(sig)
  {
    if failure.Some? then
      var s := SetStatus(w, c, Error);
      Effect(s.world, s.signals + [Event(c, OnError(failure.value))])
    else Effect(w, [])
  }

  /** After the hook: `Start` becomes `FinishedNormal`, `Error` becomes `FinishedAbnormal`, anything else stays. */
  function Normalise(w: World, c: ChainId): (r: Effect)
    requires c < |w.chains|
    ensures SameWiring(w, r.world)
    ensures forall i | 0 <= i < |w.chains| && i != c :: r.world.chains[i] == w.chains[i]
    ensures r.world.chains[c] == w.chains[c].(status := Settle(w.chains[c].status, None))
    ensures r.signals == StatusChangeAt(w, c, Settle(w.chains[c].status, None))
    ensures w.chains[c].status == Error ==> r.signals == [Event(c, OnStatusChange(FinishedAbnormal, Error))]
    ensures forall sig | sig in r.signals :: sig.Event? && !BracketSignal(sig)
  {
    var st := w.chains[c].status;
    if st == Start then SetStatus(w, c, FinishedNormal)
    else if st == Error then SetStatus(w, c, FinishedAbnormal)
    else Effect(w, [])
  }

  /**
    The lifecycle's last steps: a thrown failure becomes `Error` and an error
    event; pending parameters are announced to the input listeners; `Start`
    becomes `FinishedNormal` and `Error` becomes `FinishedAbnormal`; the finish
    event comes last.
   */
  function Leave(w: World, c: ChainId, failure: Option<string>): (r: Effect)
    requires c < |w.chains|
    ensures SameWiring(w, r.world)
    ensures forall i | 0 <= i < |w.chains| && i != c :: r.world.chains[i] == w.chains[i]
    ensures r.world.chains[c] == w.chains[c].(status := Settle(w.chains[c].status, failure))
    ensures 0 < |r.signals| && r.signals[|r.signals| - 1] == Event(c, OnFinished)
    ensures forall i | 0 <= i < |r.signals| - 1 :: !BracketSignal(r.signals[i])
    ensures InputRequest(c, w.chains[c].waitInputParameters) in r.signals <==> |w.chains[c].waitInputParameters| > 0
    ensures forall sig | sig in r.signals && sig.InputRequest? :: sig == InputRequest(c, w.chains[c].waitInputParameters)
    ensures failure.Some? ==> Event(c, OnError(failure.value)) in r.signals
    ensures forall sig | sig in r.signals :: !sig.Output?
  {
    var e1 := Catch(w, c, failure);
    var wait := e1.world.chains[c].waitInputParameters;
    var input := if |wait| > 0 then [InputRequest(c, wait)] else [];
    var e2 := Normalise(e1.world, c);
    SameWiringTrans(w, e1.world, e2.world);
    LeaveSignals(c, e1.signals, input, e2.signals, wait, failure);
    Effect(e2.world, e1.signals + input + e2.signals + [Event(c, OnFinished)])
  }

  /** The finish part's signals: catch, input request, normalisation, finish event. */
  lemma LeaveSignals(c: ChainId, a: seq<Signal>, input: seq<Signal>, b: seq<Signal>, wait: seq<Parameter>, failure: Option<string>)
    requires forall sig | sig in a :: sig.Event? && !BracketSignal(sig)
    requires failure.Some? ==> 0 < |a| && a[|a| - 1] == Event(c, OnError(failure.value))
    requires input == if |wait| > 0 then [InputRequest(c, wait)] else []
    requires forall sig | sig in b :: sig.Event? && !BracketSignal(sig)
    ensures var t := a + input + b + [Event(c, OnFinished)];
      && 0 < |t| && t[|t| - 1] == Event(c, OnFinished)
      && (forall i | 0 <= i < |t| - 1 :: !BracketSignal(t[i]))
      && (InputRequest(c, wait) in t <==> |wait| > 0)
      && (forall sig | sig in t && sig.InputRequest? :: sig == InputRequest(c, wait))
      && (failure.Some? ==> Event(c, OnError(failure.value)) in t)
      && (forall sig | sig in t :: !sig.Output?)
  {
    var t := a + input + b + [Event(c, OnFinished)];
    var u := a + input + b;
    assert t == u + [Event(c, OnFinished)];
    forall i | 0 <= i < |t| - 1 ensures !BracketSignal(t[i]) {
      assert t[i] == u[i];
      assert u[i] in a || u[i] in input || u[i] in b;
    }
    if failure.Some? {
      assert t[|a| - 1] == a[|a| - 1];
    }
  }

  /**
    The finish part in full. After a thrown failure: the change to `Error` (if
    the chain was not already there), the error event, the input request when
    parameters are awaited, the change to `FinishedAbnormal`, the finish event.
    After a return: the input request, the change to the settled status (if
    any), the finish event.
   */
  lemma LeaveOrder(w: World, c: ChainId, failure: Option<string>)
    requires c < |w.chains|
    ensures var wait := w.chains[c].waitInputParameters;
      var input := if |wait| > 0 then [InputRequest(c, wait)] else [];
      failure.Some? ==>
        Leave(w, c, failure).signals
        == StatusChangeAt(w, c, Error) + [Event(c, OnError(failure.value))] + input
           + [Event(c, OnStatusChange(FinishedAbnormal, Error)), Event(c, OnFinished)]
    ensures var wait := w.chains[c].waitInputParameters;
      var input := if |wait| > 0 then [InputRequest(c, wait)] else [];
      failure.None? ==>
        Leave(w, c, failure).signals
        == input + StatusChangeAt(w, c, Settle(w.chains[c].status, None)) + [Event(c, OnFinished)]
  {
    var e1 := Catch(w, c, failure);
    var e2 := Normalise(e1.world, c);
    assert e1.world.chains[c].waitInputParameters == w.chains[c].waitInputParameters;
    if failure.Some? {
      assert e2.signals == [Event(c, OnStatusChange(FinishedAbnormal, Error))];
    }
  }

  /** A thrown failure is announced before the chain reports the abnormal finish. */
  lemma LeaveReportsFailureFirst(w: World, c: ChainId, failure: string)
    requires c < |w.chains|
    ensures var t := Leave(w, c, Some(failure)).signals;
      exists i, j | 0 <= i < j < |t| ::
        t[i] == Event(c, OnError(failure)) && t[j] == Event(c, OnStatusChange(FinishedAbnormal, Error))
  {
    var e1 := Catch(w, c, Some(failure));
    var wait := e1.world.chains[c].waitInputParameters;
    var input := if |wait| > 0 then [InputRequest(c, wait)] else [];
    var e2 := Normalise(e1.world, c);
    var t := e1.signals + input + e2.signals + [Event(c, OnFinished)];
    assert t == Leave(w, c, Some(failure)).signals;
    assert t[|e1.signals| - 1] == Event(c, OnError(failure));
    assert t[|e1.signals| + |input|] == Event(c, OnStatusChange(FinishedAbnormal, Error));
  }

  /** Joining a start part, a hook part and a finish part keeps the brackets at the two ends. */
  lemma BracketsOnlyAtEnds(a: seq<Signal>, b: seq<Signal>, t: seq<Signal>)
    requires 0 < |a| && forall i | 1 <= i < |a| :: !BracketSignal(a[i])
    requires forall sig | sig in b :: HookSignal(sig)
    requires 0 < |t| && forall i | 0 <= i < |t| - 1 :: !BracketSignal(t[i])
    ensures forall i | 0 < i < |a + b + t| - 1 :: !BracketSignal((a + b + t)[i])
  {
    forall i | 0 < i < |a + b + t| - 1 ensures !BracketSignal((a + b + t)[i]) {
      if i < |a| {
        assert (a + b + t)[i] == a[i];
      } else if i < |a| + |b| {
        assert (a + b + t)[i] == b[i - |a|];
        assert b[i - |a|] in b;
      } else {
        assert (a + b + t)[i] == t[i - |a| - |b|];
      }
    }
  }

  /** Only the finish part of a run can hold input requests. */
  lemma InputRequestsOnlyAtTheEnd(a: seq<Signal>, b: seq<Signal>, t: seq<Signal>)
    requires forall i | 0 <= i < |a| :: a[i].Event?
    requires forall sig | sig in b :: HookSignal(sig)
    ensures forall sig | sig in a + b + t && sig.InputRequest? :: sig in t
  {
    assert forall sig | sig in a :: sig.Event?;
  }

  /** The signals of a run: the start part, the hook's part and the finish part, joined. */
  lemma RunSignals(c: ChainId, a: seq<Signal>, b: seq<Signal>, t: seq<Signal>, failure: Option<string>, wait: seq<Parameter>)
    requires 0 < |a| && a[0] == Event(c, OnStart)
    requires forall i | 1 <= i < |a| :: a[i].Event? && !BracketSignal(a[i])
    requires forall sig | sig in b :: HookSignal(sig)
    requires 0 < |t| && t[|t| - 1] == Event(c, OnFinished)
    requires forall i | 0 <= i < |t| - 1 :: !BracketSignal(t[i])
    requires InputRequest(c, wait) in t <==> |wait| > 0
    requires forall sig | sig in t && sig.InputRequest? :: sig == InputRequest(c, wait)
    requires failure.Some? ==> Event(c, OnError(failure.value)) in t
    ensures 2 <= |a + b + t| && (a + b + t)[0] == Event(c, OnStart)
    ensures (a + b + t)[|a + b + t| - 1] == Event(c, OnFinished)
    ensures forall i | 0 < i < |a + b + t| - 1 :: !BracketSignal((a + b + t)[i])
    ensures failure.Some? ==> Event(c, OnError(failure.value)) in a + b + t
    ensures (exists sig | sig in a + b + t :: sig.InputRequest?) <==> |wait| > 0
    ensures forall sig | sig in a + b + t && sig.InputRequest? :: sig == InputRequest(c, wait)
  {
    BracketsOnlyAtEnds(a, b, t);
    assert forall i | 0 <= i < |a| :: a[i].Event?;
    InputRequestsOnlyAtTheEnd(a, b, t);
  }

  /** The running chain at the end of a run, from its record before the run. */
  function RunOn(ch: Chain, vars: Option<Memory>, hook: Hook): Chain
  {
    var after := AfterCalls(Entered(ch, vars), hook.calls);
    after.(status := Settle(after.status, hook.failure))
  }

  /**
    runInLifeCycle (and so `execute`): start bracket, hook, normalisation, finish
    bracket. A run never leaves the chain in the transient `Start` or `Error`
    status, announces a thrown failure, and asks the input listeners for
    exactly the parameters still awaited.
   */
  function RunInLifeCycle(w: World, c: ChainId, vars: Option<Memory>, hook: Hook): (r: Effect)
    requires Valid(w) && c < |w.chains|
    ensures SameWiring(w, r.world)
    ensures r.world.chains[c] == RunOn(w.chains[c], vars, hook)
    ensures 2 <= |r.signals|
    ensures r.signals[0] == Event(c, OnStart)
    ensures r.signals[|r.signals| - 1] == Event(c, OnFinished)
    ensures forall i | 0 < i < |r.signals| - 1 :: !BracketSignal(r.signals[i])
    ensures r.world.chains[c].status != Start && r.world.chains[c].status != Error
    ensures hook.failure.Some? ==> r.world.chains[c].status == FinishedAbnormal
    ensures hook.failure.Some? ==> Event(c, OnError(hook.failure.value)) in r.signals
    ensures (exists sig | sig in r.signals :: sig.InputRequest?) <==> |r.world.chains[c].waitInputParameters| > 0
    ensures forall sig | sig in r.signals && sig.InputRequest? :: sig == InputRequest(c, r.world.chains[c].waitInputParameters)
  {
    var e1 := Enter(w, c, vars);
    ValidSameWiring(w, e1.world);
    var e2 := ApplyCalls(e1.world, c, hook.calls);
    var e3 := Leave(e2.world, c, hook.failure);
    SameWiringTrans(w, e1.world, e2.world);
    SameWiringTrans(w, e2.world, e3.world);
    RunSignals(c, e1.signals, e2.signals, e3.signals, hook.failure, e2.world.chains[c].waitInputParameters);
    Effect(e3.world, e1.signals + e2.signals + e3.signals)
  }

  /**
    The signals of one run of chain `c`, as `RunInLifeCycle` guarantees them:
    the start event first and the finish event last, no other start or finish
    in between, the error event when the hook threw, and the input listeners
    called, with the chain's pending parameters, exactly when some are pending.
   */
  predicate RunTrace(c: ChainId, t: seq<Signal>, failure: Option<string>, wait: seq<Parameter>)
  {
    && 2 <= |t|
    && t[0] == Event(c, OnStart)
    && t[|t| - 1] == Event(c, OnFinished)
    && (forall i | 0 < i < |t| - 1 :: !BracketSignal(t[i]))
    && (failure.Some? ==> Event(c, OnError(failure.value)) in t)
    && ((exists sig | sig in t :: sig.InputRequest?) <==> |wait| > 0)
    && (forall sig | sig in t && sig.InputRequest? :: sig == InputRequest(c, wait))
  }

  /**
    A run whose hook throws ends with the change to `FinishedAbnormal` and the
    finish event, and announces the failure before them.
   */
  lemma RunReportsFailureBeforeFinish(w: World, c: ChainId, vars: Option<Memory>, hook: Hook)
    requires Valid(w) && c < |w.chains| && hook.failure.Some?
    ensures var t := RunInLifeCycle(w, c, vars, hook).signals;
      && 3 <= |t|
      && t[|t| - 2] == Event(c, OnStatusChange(FinishedAbnormal, Error))
      && exists i | 0 < i < |t| - 2 :: t[i] == Event(c, OnError(hook.failure.value))
  {
    var e1 := Enter(w, c, vars);
    ValidSameWiring(w, e1.world);
    var e2 := ApplyCalls(e1.world, c, hook.calls);
    var e3 := Leave(e2.world, c, hook.failure);
    LeaveOrder(e2.world, c, hook.failure);
    var wait := e2.world.chains[c].waitInputParameters;
    var input := if |wait| > 0 then [InputRequest(c, wait)] else [];
    var pre := StatusChangeAt(e2.world, c, Error);
    var tail := [Event(c, OnStatusChange(FinishedAbnormal, Error)), Event(c, OnFinished)];
    assert e3.signals == pre + [Event(c, OnError(hook.failure.value))] + input + tail;
    var t := e1.signals + e2.signals + e3.signals;
    assert t == RunInLifeCycle(w, c, vars, hook).signals;
    var i := |e1.signals| + |e2.signals| + |pre|;
    assert t[i] == Event(c, OnError(hook.failure.value));
    assert t[|t| - 2] == tail[0];
  }

  /** The outputs a run raises are exactly its hook's output calls, in call order. */
  lemma RunOutputs(w: World, c: ChainId, vars: Option<Memory>, hook: Hook)
    requires Valid(w) && c < |w.chains|
    ensures OutputsIn(RunInLifeCycle(w, c, vars, hook).signals) == HookOutputs(c, hook.calls)
  {
    var e1 := Enter(w, c, vars);
    ValidSameWiring(w, e1.world);
    var e2 := ApplyCalls(e1.world, c, hook.calls);
    var e3 := Leave(e2.world, c, hook.failure);
    assert RunInLifeCycle(w, c, vars, hook).signals == e1.signals + e2.signals + e3.signals;
    OutputsInConcat(e1.signals + e2.signals, e3.signals);
    OutputsInConcat(e1.signals, e2.signals);
    assert forall sig | sig in e1.signals :: sig.Event?;
    NoOutputsIn(e1.signals);
    NoOutputsIn(e3.signals);
  }
}

=== FILE: llm_status.dfy ===
/** The status of a streamed model message, as the vendor decoders report it. */
module Messages {
  datatype MessageStatus = Start | Middle | End | Unknow
}

/**
  The Spark vendor's finish-status decoder: the integer `status` field of a
  response chunk becomes a message status.
 */
module SparkLlm {
  import opened Common
  import opened Messages

  /** A Java `int`: the values a boxed `Integer` can hold. */
  newtype Int32 = x: int | -0x8000_0000 <= x < 0x8000_0000

  /**
    parseMessageStatus(Integer): switching on a null `Integer` fails while
    unboxing (`None`); 0, 1 and 2 are start, middle and end; every other value
    is unknown.
   */
  function ParseMessageStatus(status: Option<Int32>): (r: Option<MessageStatus>)
    ensures r.None? <==> status.None?
    ensures status == Some(0) ==> r == Some(Start)
    ensures status == Some(1) ==> r == Some(Middle)
    ensures status == Some(2) ==> r == Some(End)
    ensures status.Some? ==> (r == Some(Unknow) <==> status.value < 0 || status.value > 2)
  {
    match status
    case None => None
    case Some(n) =>
      if n == 0 then Some(Start)
      else if n == 1 then Some(Middle)
      else if n == 2 then Some(End)
      else Some(Unknow)
  }

  /** The wire code of each status the decoder knows; `Unknow` has none. */
  function StatusCode(s: MessageStatus): Option<Int32>
  {
    match s
    case Start => Some(0)
    case Middle => Some(1)
    case End => Some(2)
    case Unknow => None
  }

  /** Encoding a known status and decoding it gives the status back. */
  lemma KnownStatusRoundTrip(s: MessageStatus)
    requires s != Unknow
    ensures StatusCode(s).Some? && ParseMessageStatus(StatusCode(s)) == Some(s)
  {
  }

  /** Decoding a code to a known status and encoding it gives the code back. */
  lemma KnownCodeRoundTrip(n: Int32)
    requires ParseMessageStatus(Some(n)) != Some(Unknow)
    ensures StatusCode(ParseMessageStatus(Some(n)).value) == Some(n)
  {
  }

  /** Two codes that decode to the same known status are the same code. */
  lemma DecodeInjectiveOnKnown(a: Int32, b: Int32)
    requires ParseMessageStatus(Some(a)) == ParseMessageStatus(Some(b)) != Some(Unknow)
    ensures a == b
  {
    KnownCodeRoundTrip(a);
    KnownCodeRoundTrip(b);
  }
}

/**
  The OpenAI vendor's finish-status decoder: the `finish_reason` string of a
  response choice becomes a message status.
 */
module OpenAiStatus {
  import opened Common
  import opened Messages

  /** parseMessageStatus(String): "stop" ends the message; anything else, null included, is the middle. */
  function ParseMessageStatus(finishReason: Option<string>): (r: MessageStatus)
    ensures r == End <==> finishReason == Some("stop")
    ensures r != Start && r != Unknow
  {
    if finishReason == Some("stop") then End else Middle
  }

  /**
    A finish reason the vendor sends for each status the decoder can produce:
    "stop" on the last chunk and no reason (null) on the others. `Start` and
    `Unknow` are never decoded, so they have none.
   */
  function FinishReason(s: MessageStatus): Option<Option<string>>
  {
    match s
    case End => Some(Some("stop"))
    case Middle => Some(None)
    case _ => None
  }

  /** Encoding a status the decoder produces and decoding it gives the status back. */
  lemma StatusRoundTrip(s: MessageStatus)
    requires s == Middle || s == End
    ensures FinishReason(s).Some? && ParseMessageStatus(FinishReason(s).value) == s
  {
  }

  /**
    Every finish reason decodes like the canonical reason of its status, and a
    reason that ends the message is exactly the canonical "stop".
   */
  lemma ReasonRoundTrip(finishReason: Option<string>)
    ensures FinishReason(ParseMessageStatus(finishReason)).Some?
    ensures ParseMessageStatus(FinishReason(ParseMessageStatus(finishReason)).value) == ParseMessageStatus(finishReason)
    ensures ParseMessageStatus(finishReason) == End ==> FinishReason(End) == Some(finishReason)
  {
  }
}

=== FILE: milvus_expression.dfy ===
/**
  The Milvus filter-expression adaptor: how `EQ`, `BETWEEN` and `IN`
  conditions are written in Milvus's expression syntax. Every other case is
  handed to the generic adaptor, whose defaults are parameters here.

  Java objects are represented by their `toString` text; a null is `None`.
 */
module MilvusExpression {
  import opened Common

  datatype ConditionType = Eq | Ge | Le | In | Between | OtherType(name: string)

  /** A condition's right-hand value: null, one object, or an object array. */
  datatype Obj = NullObj | Scalar(text: string) | Items(items: seq<Option<string>>)

  /** A side of a condition: a literal value, or any other operand (a key, a nested condition). */
  datatype Operand = ValueOperand(value: Obj) | OtherOperand(id: nat)

  datatype Condition = Condition(kind: ConditionType, left: Operand, right: Operand)

  /** The generic adaptor's defaults, which the Milvus adaptor falls back on. */
  datatype BaseAdaptor = BaseAdaptor(
    symbol: ConditionType -> string,
    leftText: Operand -> string,
    condition: Condition -> string,
    value: (Condition, Obj) -> string)

  /** The runtime failures the casts and array reads can raise. */
  datatype Failure = ClassCast | IndexOutOfBounds | NullPointer

  /** toSymbol: equality is written ` == `; every other type as the generic adaptor writes it. */
  function ToSymbol(base: BaseAdaptor, t: ConditionType): (r: string)
    ensures t == Eq ==> r == " == "
    ensures t != Eq ==> r == base.symbol(t)
  {
    if t == Eq then " == " else base.symbol(t)
  }

  /** String concatenation of an object: its text, or "null". */
  function Show(v: Option<string>): string
  {
    if v.Some? then v.value else "null"
  }

  /**
    toCondition: a `BETWEEN` condition becomes `(L >= lo && L <= hi)` from the
    first two array values; the right side must be a value holding an array
    of at least two objects. Other conditions use the generic rendering.
   */
  function ToCondition(base: BaseAdaptor, c: Condition): (r: Result<string, Failure>)
    ensures c.kind != Between ==> r == Ok(base.condition(c))
    ensures c.kind == Between && !(c.right.ValueOperand? && c.right.value.Items?) ==> r.Err? && r.error != IndexOutOfBounds
    ensures c.kind == Between && c.right.ValueOperand? && c.right.value.Items? ==>
      (r.Ok? <==> |c.right.value.items| >= 2)
    ensures r.Ok? && c.kind == Between ==>
      var l := base.leftText(c.left);
      var vs := c.right.value.items;
      r.value == "(" + l + ToSymbol(base, Ge) + Show(vs[0]) + " && " + l + ToSymbol(base, Le) + Show(vs[1]) + ")"
  {
    if c.kind != Between then Ok(base.condition(c))
    else match c.right
      case OtherOperand(_) => Err(ClassCast)
      case ValueOperand(NullObj) => Err(NullPointer)
      case ValueOperand(Scalar(_)) => Err(ClassCast)
      case ValueOperand(Items(vs)) =>
        if |vs| < 2 then Err(IndexOutOfBounds)
        else
          var l := base.leftText(c.left);
          Ok("(" + l + ToSymbol(base, Ge) + Show(vs[0]) + " && " + l + ToSymbol(base, Le) + Show(vs[1]) + ")")
  }

  /** A `BETWEEN` rendering reads only the first two values of the array. */
  lemma BetweenUsesFirstTwo(base: BaseAdaptor, left: Operand, vs: seq<Option<string>>, extra: seq<Option<string>>)
    requires |vs| >= 2
    ensures ToCondition(base, Condition(Between, left, ValueOperand(Items(vs + extra))))
         == ToCondition(base, Condition(Between, left, ValueOperand(Items(vs[..2]))))
  {
    assert (vs + extra)[0] == vs[..2][0] && (vs + extra)[1] == vs[..2][1];
  }

  /** An item as Milvus quotes it. */
  function Quote(s: string): string
  {
    ['"'] + s + ['"']
  }

  /** The non-null items, quoted, in input order. */
  function QuotedItems(vs: seq<Option<string>>): (r: seq<string>)
    ensures |r| <= |vs|
    decreases |vs|
  {
    if |vs| == 0 then []
    else (if vs[0].Some? then [Quote(vs[0].value)] else []) + QuotedItems(vs[1..])
  }

  /** The items joined with a comma between neighbours. */
  function Join(xs: seq<string>): string
    decreases |xs|
  {
    if |xs| == 0 then "" else if |xs| == 1 then xs[0] else xs[0] + "," + Join(xs[1..])
  }

  /** The `IN` list as the joiner builds it: `[`, the quoted non-null items separated by `,`, `]`. */
  function RenderIn(vs: seq<Option<string>>): (r: string)
    ensures 2 <= |r| && r[0] == '[' && r[|r| - 1] == ']'
  {
    "[" + Join(QuotedItems(vs)) + "]"
  }

  /**
    toValue: an `IN` value must be an object array and renders as a bracketed,
    comma-separated list of its quoted non-null items; other conditions use
    the generic rendering.
   */
  function ToValue(base: BaseAdaptor, c: Condition, value: Obj): (r: Result<string, Failure>)
    ensures c.kind != In ==> r == Ok(base.value(c, value))
    ensures c.kind == In ==> (r.Ok? <==> value.Items?)
    ensures c.kind == In && value.NullObj? ==> r == Err(NullPointer)
    ensures c.kind == In && value.Scalar? ==> r == Err(ClassCast)
    ensures c.kind == In && value.Items? ==> r == Ok(RenderIn(value.items))
  {
    if c.kind != In then Ok(base.value(c, value))
    else match value
      case NullObj => Err(NullPointer)
      case Scalar(_) => Err(ClassCast)
      case Items(vs) => Ok(RenderIn(vs))
  }

  lemma {:induction false} JoinSnoc(xs: seq<string>, x: string)
    requires |xs| > 0
    ensures Join(xs + [x]) == Join(xs) + "," + x
    decreases |xs|
  {
    if |xs| > 1 {
      assert (xs + [x])[1..] == xs[1..] + [x];
      JoinSnoc(xs[1..], x);
    }
  }

  lemma {:induction false} QuotedItemsSnoc(vs: seq<Option<string>>, v: Option<string>)
    ensures QuotedItems(vs + [v]) == QuotedItems(vs) + (if v.Some? then [Quote(v.value)] else [])
    decreases |vs|
  {
    if |vs| > 0 {
      assert (vs + [v])[1..] == vs[1..] + [v];
      QuotedItemsSnoc(vs[1..], v);
    }
  }

  /** The `IN` rendering as the Java adaptor computes it: a joiner fed one quoted item per non-null value. */
  method JoinIn(vs: seq<Option<string>>) returns (s: string)
    ensures s == RenderIn(vs)
  {
    var body := "";
    var empty := true;
    var i := 0;
    while i < |vs|
      invariant 0 <= i <= |vs|
      invariant empty <==> QuotedItems(vs[..i]) == []
      invariant body == Join(QuotedItems(vs[..i]))
    {
      QuotedItemsSnoc(vs[..i], vs[i]);
      assert vs[..i + 1] == vs[..i] + [vs[i]];
      if vs[i].Some? {
        var item := Quote(vs[i].value);
        assert QuotedItems(vs[..i + 1]) == QuotedItems(vs[..i]) + [item];
        if empty {
          assert QuotedItems(vs[..i + 1]) == [item];
          body := item;
        } else {
          JoinSnoc(QuotedItems(vs[..i]), item);
          body := body + "," + item;
        }
        empty := false;
      } else {
        assert QuotedItems(vs[..i + 1]) == QuotedItems(vs[..i]);
      }
      i := i + 1;
    }
    assert vs[..i] == vs;
    s := "[" + body + "]";
  }

  /** Splits a text at every comma. */
  function Split(s: string): (r: seq<string>)
    ensures |r| > 0
    decreases |s|
  {
    if ',' !in s then [s]
    else
      var i := FirstComma(s);
      [s[..i]] + Split(s[i + 1..])
  }

  function FirstComma(s: string): (i: nat)
    requires ',' in s
    ensures i < |s| && s[i] == ','
    ensures forall j | 0 <= j < i :: s[j] != ','
    decreases |s|
  {
    if s[0] == ',' then 0
    else
      FirstComma(s[1..]) + 1
  }

  /** A comma-free first part is split off at the comma that follows it. */
  lemma SplitAfter(a: string, b: string)
    requires ',' !in a
    ensures Split(a + "," + b) == [a] + Split(b)
  {
    var s := a + "," + b;
    assert s[|a|] == ',';
    var i := FirstComma(s);
    assert forall j | 0 <= j < |a| :: s[j] == a[j];
    assert i == |a|;
    assert s[..i] == a;
    assert s[i + 1..] == b;
  }

  lemma {:induction false} SplitJoin(xs: seq<string>)
    requires |xs| > 0
    requires forall k | 0 <= k < |xs| :: ',' !in xs[k]
    ensures Split(Join(xs)) == xs
    decreases |xs|
  {
    if |xs| > 1 {
      assert Join(xs) == xs[0] + "," + Join(xs[1..]);
      SplitAfter(xs[0], Join(xs[1..]));
      SplitJoin(xs[1..]);
      assert xs == [xs[0]] + xs[1..];
    }
  }

  /** Strips the quotes from a quoted item. */
  function Unquote(s: string): Option<string>
  {
    if |s| >= 2 && s[0] == '"' && s[|s| - 1] == '"' then Some(s[1..|s| - 1]) else None
  }

  function UnquoteAll(xs: seq<string>): Option<seq<string>>
    decreases |xs|
  {
    if |xs| == 0 then Some([])
    else match (Unquote(xs[0]), UnquoteAll(xs[1..]))
      case (Some(x), Some(rest)) => Some([x] + rest)
      case _ => None
  }

  /** Reads an `IN` list back: the items between the brackets, unquoted. */
  function ParseIn(s: string): Option<seq<string>>
  {
    if |s| < 2 || s[0] != '[' || s[|s| - 1] != ']' then None
    else
      var body := s[1..|s| - 1];
      if body == "" then Some([]) else UnquoteAll(Split(body))
  }

  /** The non-null items, in input order. */
  function Present(vs: seq<Option<string>>): (r: seq<string>)
    decreases |vs|
  {
    if |vs| == 0 then [] else (if vs[0].Some? then [vs[0].value] else []) + Present(vs[1..])
  }

  /** Quoting never introduces a comma. */
  lemma {:induction false} QuotedHaveNoComma(vs: seq<Option<string>>)
    requires forall k | 0 <= k < |vs| :: vs[k].Some? ==> ',' !in vs[k].value
    ensures forall k | 0 <= k < |QuotedItems(vs)| :: ',' !in QuotedItems(vs)[k]
    decreases |vs|
  {
    if |vs| > 0 {
      assert forall k | 0 <= k < |vs[1..]| :: vs[1..][k] == vs[k + 1];
      QuotedHaveNoComma(vs[1..]);
      if vs[0].Some? {
        var q := Quote(vs[0].value);
        assert forall j | 0 <= j < |q| :: q[j] == '"' || q[j] == vs[0].value[j - 1];
        assert QuotedItems(vs) == [q] + QuotedItems(vs[1..]);
      } else {
        assert QuotedItems(vs) == QuotedItems(vs[1..]);
      }
    }
  }

  /** Unquoting the quoted items gives the non-null items back. */
  lemma {:induction false} UnquoteQuoted(vs: seq<Option<string>>)
    ensures UnquoteAll(QuotedItems(vs)) == Some(Present(vs))
    decreases |vs|
  {
    if |vs| > 0 {
      UnquoteQuoted(vs[1..]);
      if vs[0].Some? {
        var q := Quote(vs[0].value);
        assert Unquote(q) == Some(vs[0].value) by {
          assert q[1..|q| - 1] == vs[0].value;
        }
        var qs := [q] + QuotedItems(vs[1..]);
        assert QuotedItems(vs) == qs;
        assert qs[0] == q && qs[1..] == QuotedItems(vs[1..]);
        assert Present(vs) == [vs[0].value] + Present(vs[1..]);
      } else {
        assert QuotedItems(vs) == QuotedItems(vs[1..]);
        assert Present(vs) == Present(vs[1..]);
      }
    }
  }

  /**
    When no item contains a comma, reading the `IN` list back gives exactly
    the non-null items in their input order: nulls are skipped, nothing is
    reordered, and each item was quoted.
   */
  lemma {:induction false} InListRoundTrip(vs: seq<Option<string>>)
    requires forall k | 0 <= k < |vs| :: vs[k].Some? ==> ',' !in vs[k].value
    ensures ParseIn(RenderIn(vs)) == Some(Present(vs))
  {
    var qs := QuotedItems(vs);
    QuotedHaveNoComma(vs);
    UnquoteQuoted(vs);
    var s := RenderIn(vs);
    assert s[1..|s| - 1] == Join(qs);
    if |qs| > 0 {
      assert |Join(qs)| > 0 by {
        JoinLength(qs);
      }
      SplitJoin(qs);
    }
  }

  lemma {:induction false} JoinLength(xs: seq<string>)
    requires |xs| > 0
    ensures |Join(xs)| >= |xs[0]|
    decreases |xs|
  {
  }

  /** One item is rendered per non-null value: the array's length less its nulls. */
  lemma {:induction false} PresentCountsNonNull(vs: seq<Option<string>>)
    ensures |Present(vs)| == |vs| - multiset(vs)[None]
    decreases |vs|
  {
    if |vs| > 0 {
      assert vs == [vs[0]] + vs[1..];
      assert multiset(vs) == multiset{vs[0]} + multiset(vs[1..]);
      PresentCountsNonNull(vs[1..]);
    }
  }

  /** An array with no non-null item renders as the empty list. */
  lemma EmptyInList(vs: seq<Option<string>>)
    requires forall k | 0 <= k < |vs| :: vs[k].None?
    ensures RenderIn(vs) == "[]"
  {
    UnquoteQuoted(vs);
    NoPresent(vs);
  }

  lemma {:induction false} NoPresent(vs: seq<Option<string>>)
    requires forall k | 0 <= k < |vs| :: vs[k].None?
    ensures Present(vs) == []
    decreases |vs|
  {
    if |vs| > 0 {
      assert forall k | 0 <= k < |vs[1..]| :: vs[1..][k] == vs[k + 1];
      NoPresent(vs[1..]);
    }
  }
}

=== FILE: openai_payload.dfy ===
/**
  The key rules of the OpenAI chat request payload: which top-level keys the
  request carries for a given prompt, model options and streaming flag.

  The payload is a map built step by step with conditional inserts; the JSON
  text it is serialised to, and the formatting of messages and functions, are
  left abstract.
 */
module OpenAiPayload {
  import opened Common

  /** A JSON value placed in the payload; formatted messages and tools stay opaque. */
  datatype Json =
    | Text(text: string)
    | Flag(flag: bool)
    | Number(number: real)
    | Whole(whole: int)
    | Formatted(id: nat)

  /** The top-level keys of a chat request. */
  datatype Key = ModelKey | MessagesKey | StreamKey | ToolsKey | ToolChoiceKey | TemperatureKey | MaxTokensKey

  /** The name each key has in the serialised request. */
  function KeyName(k: Key): string
  {
    match k
    case ModelKey => "model"
    case MessagesKey => "messages"
    case StreamKey => "stream"
    case ToolsKey => "tools"
    case ToolChoiceKey => "tool_choice"
    case TemperatureKey => "temperature"
    case MaxTokensKey => "max_tokens"
  }

  /**
    Two keys have the same name exactly when they are the same key, so a
    payload keyed by `Key` describes the serialised object faithfully.
   */
  lemma KeyNamesDistinct(a: Key, b: Key)
    ensures KeyName(a) == KeyName(b) <==> a == b
  {
    if a != b {
      assert KeyName(a)[0] != KeyName(b)[0] || |KeyName(a)| != |KeyName(b)| || KeyName(a)[1] != KeyName(b)[1];
    }
  }

  type Payload = map<Key, Json>

  /** Key `k` is present in `p` exactly when it is in `before`, and with the same value. */
  predicate Keeps(p: Payload, before: Payload, k: Key)
  {
    (k in p <==> k in before) && (k in p ==> p[k] == before[k])
  }

  /** put: insert or overwrite. */
  function Put(m: Payload, k: Key, v: Json): (r: Payload)
    ensures k in r && r[k] == v
    ensures forall x | x != k :: Keeps(r, m, x)
  {
    m[k := v]
  }

  /** putIf(condition, key, value): insert only when the condition holds. */
  function PutIf(cond: bool, m: Payload, k: Key, v: Json): (r: Payload)
    ensures cond ==> r == Put(m, k, v)
    ensures !cond ==> r == m
  {
    if cond then Put(m, k, v) else m
  }

  /** putIfNotEmpty(key, list): insert only a present, non-empty list. */
  function PutIfNotEmpty(m: Payload, k: Key, v: Option<seq<Json>>, asJson: Json): (r: Payload)
    ensures v.Some? && |v.value| > 0 ==> r == Put(m, k, asJson)
    ensures v.None? || |v.value| == 0 ==> r == m
  {
    PutIf(v.Some? && |v.value| > 0, m, k, asJson)
  }

  /** putIfContainsKey(check, key, value): insert only when `check` is already a key. */
  function PutIfContainsKey(m: Payload, check: Key, k: Key, v: Json): (r: Payload)
    ensures check in m ==> r == Put(m, k, v)
    ensures check !in m ==> r == m
  {
    PutIf(check in m, m, k, v)
  }

  /** `promptToPayload`'s temperature test, `temperature > 0`. */
  predicate Positive(x: real)
  {
    x > 0.0
  }

  /** The options a request is built from; the formatted tools are absent or a list. */
  datatype Request = Request(
    model: string,
    messages: Json,
    tools: Option<seq<Json>>,
    toolsJson: Json,
    temperature: real,
    maxTokens: int,
    withStream: bool)

  /** The first builder steps: model, messages and the stream flag. */
  function Head(q: Request): (p: Payload)
    ensures p.Keys <= {ModelKey, MessagesKey, StreamKey}
    ensures ModelKey in p && p[ModelKey] == Text(q.model)
    ensures MessagesKey in p && p[MessagesKey] == q.messages
    ensures StreamKey in p <==> q.withStream
    ensures StreamKey in p ==> p[StreamKey] == Flag(true)
  {
    var b1 := Put(map[], ModelKey, Text(q.model));
    var b2 := Put(b1, MessagesKey, q.messages);
    PutIf(q.withStream, b2, StreamKey, Flag(true))
  }

  /** The tools, when there are any, together with the automatic tool choice. */
  function ToolStage(q: Request): (p: Payload)
    ensures Keeps(p, Head(q), ModelKey) && Keeps(p, Head(q), MessagesKey) && Keeps(p, Head(q), StreamKey)
    ensures TemperatureKey !in p && MaxTokensKey !in p
    ensures ToolsKey in p <==> q.tools.Some? && |q.tools.value| > 0
    ensures ToolChoiceKey in p <==> ToolsKey in p
    ensures ToolChoiceKey in p ==> p[ToolChoiceKey] == Text("auto")
  {
    var b3 := Head(q);
    var b4 := PutIfNotEmpty(b3, ToolsKey, q.tools, q.toolsJson);
    PutIfContainsKey(b4, ToolsKey, ToolChoiceKey, Text("auto"))
  }

  /** The temperature, when it is positive and no tools are offered. */
  function TemperatureStage(q: Request): (p: Payload)
    ensures Keeps(p, ToolStage(q), ModelKey) && Keeps(p, ToolStage(q), MessagesKey) && Keeps(p, ToolStage(q), StreamKey)
    ensures Keeps(p, ToolStage(q), ToolsKey) && Keeps(p, ToolStage(q), ToolChoiceKey) && MaxTokensKey !in p
    ensures TemperatureKey in p <==> ToolsKey !in ToolStage(q) && Positive(q.temperature)
    ensures TemperatureKey in p ==> p[TemperatureKey] == Number(q.temperature)
  {
    var b5 := ToolStage(q);
    PutIf(ToolsKey !in b5 && Positive(q.temperature), b5, TemperatureKey, Number(q.temperature))
  }

  /** promptToPayload: the builder steps in the order the Java builder adds the keys; the sampling limits go in only without tools. */
  function PromptToPayload(q: Request): (p: Payload)
    ensures ModelKey in p && p[ModelKey] == Text(q.model)
    ensures MessagesKey in p && p[MessagesKey] == q.messages
    ensures StreamKey in p <==> q.withStream
    ensures StreamKey in p ==> p[StreamKey] == Flag(true)
    ensures ToolsKey in p <==> q.tools.Some? && |q.tools.value| > 0
    ensures ToolChoiceKey in p <==> ToolsKey in p
    ensures ToolChoiceKey in p ==> p[ToolChoiceKey] == Text("auto")
    ensures TemperatureKey in p <==> ToolsKey !in p && Positive(q.temperature)
    ensures TemperatureKey in p ==> p[TemperatureKey] == Number(q.temperature)
    ensures MaxTokensKey in p <==> ToolsKey !in p && q.maxTokens > 0
    ensures MaxTokensKey in p ==> p[MaxTokensKey] == Whole(q.maxTokens)
  {
    var b6 := TemperatureStage(q);
    PutIf(ToolsKey !in b6 && q.maxTokens > 0, b6, MaxTokensKey, Whole(q.maxTokens))
  }

  /** The keys a request should carry, stated directly from its options. */
  function ExpectedKeys(q: Request): set<Key>
  {
    var hasTools := q.tools.Some? && |q.tools.value| > 0;
    {ModelKey, MessagesKey}
    + (if q.withStream then {StreamKey} else {})
    + (if hasTools then {ToolsKey, ToolChoiceKey} else {})
    + (if !hasTools && Positive(q.temperature) then {TemperatureKey} else {})
    + (if !hasTools && q.maxTokens > 0 then {MaxTokensKey} else {})
  }

  /** The builder produces exactly the expected keys, and no others. */
  lemma PayloadKeysAreExpected(q: Request)
    ensures PromptToPayload(q).Keys == ExpectedKeys(q)
  {
    var p := PromptToPayload(q);
  }

  /** Offering tools switches off both sampling limits, whatever their values. */
  lemma ToolsExcludeSamplingLimits(q: Request)
    requires q.tools.Some? && |q.tools.value| > 0
    ensures ToolsKey in PromptToPayload(q) && ToolChoiceKey in PromptToPayload(q)
    ensures TemperatureKey !in PromptToPayload(q) && MaxTokensKey !in PromptToPayload(q)
  {
  }
}
